=== FILE: README.md ===
# twig-persist core, modelled in Dafny

This project models the deterministic core of twig-persist. twig-persist is an object-mapping layer that flattens Java objects into the property sets of an App Engine datastore entity and reads them back. The model covers these parts:

- **`Path`** (`paths.dfy`, `path_properties.dfy`). This is the string algebra that names a location inside a flattened entity. Parts are separated by `.` (a field step) and `$` (a type step). The model covers:
  - the builder's `field` and `meta` steps;
  - `hasPrefix`, which respects separators;
  - `firstPart`, `tail` and `Part.getName`;
  - `getParts().get/size` and `firstPartAfterPrefix`;
  - `equals` and `compareTo`.

  `Strings.firstIndexOf` and `Strings.nthIndexOf` come from a utility class that is not part of this model. They get explicit definitions in `strings.dfy`, next to Java's `String.compareTo`.
- **`ObjectFieldTranslator`** (`object_fields.dfy`, `object_fields_roundtrip.dfy`). This is the field walk.
  - Encoding visits the name-sorted, non-transient, stored fields. It hands each value to the field's translator at the field's child path and concatenates the results.
  - Decoding makes one pass over the sorted fields and the property stream. Alignment skips the properties whose next part name sorts before the field's name. A drain then takes the field's run of properties.
  - Each field's translator, the type tests and conversions, and `field.set` are parameters of the model (`Hooks`).
- **`TranslatorObjectDatastore`** (`selection.dfy`, `session.dfy`):
  - the first-match choice of a field's translator, and the `stored` filter while associating;
  - the instance↔key cache as a pair of inverse maps, with `delete`, `deleteKeys`, `refresh`, `storeOrUpdate`, `associate`, `disassociate(All)` and `isAssociated`;
  - `createInstance`, which reuses a pending refresh instance and caches only once per key;
  - the activation depth being saved and restored around each field decode;
  - the check that refuses to embed a persistent instance;
  - the memoised id/key field lookup with its `NO_ID_FIELD` sentinel;
  - `getSortedAccessibleFields` as a `TreeSet` keyed by configured name.
- **`ArrayToIterable`** (`array_to_iterable.dfy`). This covers the `converts` test over a small model of reflective types, and element-wise conversion of an array into a list.
- **`StandardCommonParentsCommand`** (`parents_command.dfy`). This covers the fetch-size rule. `returnParentsLater` always throws `UnsupportedOperationException`, and `ParentsCommand.ReturnParentsLater` is that constant.

Java exceptions are values: `Outcomes.Result` is `Ok(value)` or `Throws(kind)`.
- `charAt(0)` on an empty part throws `IndexOutOfBounds`.
- A `firstPartAfterPrefix` that returns null makes `peekFieldName` throw `NullPointer`.

Operations that return normally after changing state and then throw return an `Effect`, which holds the state after the call and the exception.

Some behaviours of the code that are easy to misread:
- `Part.isType()` tests for `.`, as `isField()` does.
- `refresh` leaves the pending instance set when the entity is missing, because only `createInstance` clears it.
- `size()` restarts each search two characters after the previous separator, so it undercounts a path whose root name has one character. `Paths.Size` keeps that behaviour, and `Paths.FirstPartAfterPrefixAsWritten` is `firstPartAfterPrefix` as written. The decoder model peeks with `Paths.FirstPartAfterPrefix`, which uses the corrected count `Paths.PartCount` (see "## Findings"). So `Align`, `ActivateField`, `Activate`, `Decode` and the round-trip lemmas are about the decoder with the corrected count. The decoder peeks only below the path it decodes. At a path that `size()` counts correctly (`Paths.Countable`), the code as written peeks the same part (`PathProperties.AsWrittenPeekAgreesWhenCountable`), so the same results hold there for the code as written.

## Model

| member | source | states |
|---|---|---|
| PathProperties.FieldStepExtends | src/main/java/com/vercer/engine/persist/Path.java:37-45 | A field step appends `.` and the name to a non-empty base, and only the name to the empty path. The base is then a prefix of the result. |
| PathProperties.MetaStepExtends | src/main/java/com/vercer/engine/persist/Path.java:47-52 | A type step always appends `$` and the name, even to the empty path, and the base is a prefix of the result. |
| PathProperties.PrefixOfEmptyAndSelf | src/main/java/com/vercer/engine/persist/Path.java:223-229 | Every path has the empty path and itself as prefixes. |
| PathProperties.PrefixIffSeparatorBoundary | src/main/java/com/vercer/engine/persist/Path.java:223-241 | `hasPrefix(q)` holds exactly when the path's text is `q`'s text followed by nothing or by text that starts with a separator, or when `q` is empty. |
| PathProperties.PrefixNotInsideName | src/main/java/com/vercer/engine/persist/Path.java:226-228 | A string prefix that ends inside a name is not a path prefix. |
| PathProperties.FooIsNotPrefixOfFoobar | src/main/java/com/vercer/engine/persist/Path.java:226-228 | `foo` is not a prefix of `foobar`, but it is a prefix of `foo.bar`. |
| PathProperties.PrefixTransitive | src/main/java/com/vercer/engine/persist/Path.java:223-229 | The prefix relation is transitive. |
| PathProperties.PrefixAntisymmetric | src/main/java/com/vercer/engine/persist/Path.java:223-229 | Two paths that are prefixes of each other are equal. |
| PathProperties.IsTypeIsField | src/main/java/com/vercer/engine/persist/Path.java:64-72 | `isType()` always gives the same answer as `isField()`, including the exception on an empty part. |
| PathProperties.PartNames | src/main/java/com/vercer/engine/persist/Path.java:64-97 | A part that starts with a separator is not a root, and its name drops that separator. A root part's name is its whole text. `isField` tests for `.`. |
| PathProperties.EmptyPartHasNoName | src/main/java/com/vercer/engine/persist/Path.java:74-97 | The name of an empty part is an index-out-of-bounds exception. |
| PathProperties.FirstPartIsRoot | src/main/java/com/vercer/engine/persist/Path.java:199-210 | The first part of a path that starts with a root name is that name. |
| PathProperties.FirstPartOfLeadingSeparator | src/main/java/com/vercer/engine/persist/Path.java:199-210 | A path that starts with a separator is its own first part. |
| Paths.FirstPart | src/main/java/com/vercer/engine/persist/Path.java:199-210 | The first part is a prefix of the text that ends at a separator or at the end. It holds no separator when the path starts with a name. |
| Paths.Tail | src/main/java/com/vercer/engine/persist/Path.java:194-197 | The tail is a suffix of the path. It is strictly shorter exactly when the path holds a `.`. |
| PathProperties.TailDropsRoot | src/main/java/com/vercer/engine/persist/Path.java:194-197 | The tail of `root.name` is `name`. |
| Paths.Size | src/main/java/com/vercer/engine/persist/Path.java:142-159 | `size()` is zero exactly for the empty path. |
| Paths.PartCount | src/main/java/com/vercer/engine/persist/Path.java:142-159 | The corrected part count is zero exactly for the empty path. Every index below it names a part, and the index equal to it names none. |
| PathProperties.SizeCountsParts | src/main/java/com/vercer/engine/persist/Path.java:142-159 | On a path with no adjacent separators and no separator at index 0 or 1, `size()` is one more than the number of separators. |
| PathProperties.SizeUndercountsShortRoot | src/main/java/com/vercer/engine/persist/Path.java:149-156 | `a.b` has one separator but a `size()` of 1, because the search restarts at index 2. |
| Paths.GetPart | src/main/java/com/vercer/engine/persist/Path.java:112-140 | Part 0 always exists and starts the text. Part `n > 0` exists exactly when the path holds at least `n` separators. It then starts at the `n`-th separator and runs to the next separator or to the end. |
| Paths.FirstPartAfterPrefix | src/main/java/com/vercer/engine/persist/Path.java:243-247 | With the corrected part count: after the empty prefix, the part is the path's first part; after a non-empty prefix, a part exists exactly when the path holds more separators than the prefix. |
| PathProperties.AsWrittenPeekAgreesWhenCountable | src/main/java/com/vercer/engine/persist/Path.java:142-159 | On a countable prefix, `size()` equals the corrected part count, so `firstPartAfterPrefix` as written returns the same part as the corrected one. |
| PathProperties.FieldPartAfterBase | src/main/java/com/vercer/engine/persist/Path.java:112-140 | In `base.name…`, the part at the base's part count is `.name`. |
| PathProperties.FirstPartAfterFieldPrefix | src/main/java/com/vercer/engine/persist/Path.java:243-247 | With the corrected part count: for any base, the first part after the base in a path under `base.field(name)` is named `name`. |
| PathProperties.FirstPartAfterFieldPrefixAsWritten | src/main/java/com/vercer/engine/persist/Path.java:243-247 | As written, with `size()` as the count: for a base that `size()` counts correctly, the first part after the base in a path under `base.field(name)` is named `name`. |
| PathProperties.CompareToConsistentWithEquals | src/main/java/com/vercer/engine/persist/Path.java:258-284 | `compareTo` is zero exactly when `equals` holds, `equals` is equality of paths, and `compareTo` is antisymmetric. |
| PathProperties.SharedPrefixNotContiguous | src/main/java/com/vercer/engine/persist/Path.java:223-229 | Paths that share a prefix need not be adjacent in sort order: `a` < `a-x` < `a.b`, and `a-x` is not under `a`. |
| Strings.CompareZeroIffEqual | src/main/java/com/vercer/engine/persist/Path.java:281-284 | String comparison is zero exactly on equal strings. |
| Strings.CompareTransitive | src/main/java/com/vercer/engine/persist/translator/ObjectFieldTranslator.java:35-41 | String comparison is a transitive strict order, as the sorting comparators need. |
| Strings.FirstIndexOf | src/main/java/com/vercer/engine/persist/Path.java:126 | The index found is the least separator position at or after `from`, or -1 when there is none. |
| Strings.NthIndexOf | src/main/java/com/vercer/engine/persist/Path.java:122 | The index found holds a separator and has exactly `n-1` separators before it. With -1, fewer than `n` separators exist. |
| FieldOrder.Sort | src/main/java/com/vercer/engine/persist/translator/ObjectFieldTranslator.java:228-243 | `getSortedFields` returns a permutation of the accessible fields, ordered by name. It is stable: fields with equal names, such as a field and one it hides in a superclass, keep their original relative order. |
| ObjectFields.EncodeField | src/main/java/com/vercer/engine/persist/translator/ObjectFieldTranslator.java:187-216 | A transient or unstored field adds nothing. A null field adds only the null marker at the enclosing path. A non-null field's properties lie under `path.field(partName)`. |
| ObjectFields.EncodeFields | src/main/java/com/vercer/engine/persist/translator/ObjectFieldTranslator.java:185-220 | Every property written belongs to one of the fields in one of those ways. An instance with no visited field writes nothing. |
| ObjectFields.Encode | src/main/java/com/vercer/engine/persist/translator/ObjectFieldTranslator.java:181-226 | Any failure surfaces as an `IllegalStateException`. Every property written is a null marker at the path or lies under the child path of one of the instance's visited fields. An instance with no visited field writes nothing. |
| ObjectFields.Align | src/main/java/com/vercer/engine/persist/translator/ObjectFieldTranslator.java:122-133 | With the corrected part count: the properties skipped are exactly the leading ones whose next part name sorts before the field's name. The property it stops at has a name. A failure comes from a property whose peek throws. |
| ObjectFields.AlignThrowsWitness | src/main/java/com/vercer/engine/persist/translator/ObjectFieldTranslator.java:122-133 | When alignment throws, every property before the one whose peek threw sorts before the field, and that peek's exception is the one thrown. |
| ObjectFields.Drain | src/main/java/com/vercer/engine/persist/translator/ObjectFieldTranslator.java:79-85 | The slice is the longest leading run of properties under the child path. |
| ObjectFields.Assign | src/main/java/com/vercer/engine/persist/translator/ObjectFieldTranslator.java:99-117 | A null value leaves the field as it is. A value that does not fit the generic type is converted first. Only the field's value changes. |
| ObjectFields.ActivateField | src/main/java/com/vercer/engine/persist/translator/ObjectFieldTranslator.java:71-118 | With the corrected part count: one turn consumes a prefix of the stream: the skipped properties, then a slice under the child path. Every skipped property names a part that sorts before the field's name. Skipping stops at the first property that does not: that property, if any, names a part that does not sort before the field's name. An unvisited field gets no slice and is unchanged. A visited field's slice is the whole run under its child path: the first property after it, if any, is not under that path. The field is set from its translator's decode of the slice. |
| ObjectFields.Activate | src/main/java/com/vercer/engine/persist/translator/ObjectFieldTranslator.java:59-120 | With the corrected part count: the field turns consume the stream as consecutive, disjoint pieces in order. Each turn, given what it leaves, skips exactly the leading properties that sort before its field's name. A visited field's slice is the whole run under its child path, and the field holds its translator's decode of that slice. An unvisited field takes nothing and is unchanged. |
| ObjectFields.Decode | src/main/java/com/vercer/engine/persist/translator/ObjectFieldTranslator.java:51-57 | With the corrected part count: the instance is created first by `ObjectFields.CreateInstance`, and a failure there is an `IllegalArgumentException`. The decoded fields are the created instance's sorted fields, in order. Each was filled from its own turn of the pass: a prefix of the properties is cut into consecutive turns. Each turn skips exactly the leading properties that sort before its field's name. A visited field's turn then takes the whole run under its child path and holds its translator's decode of that run. |
| ObjectFields.StepsKeepDeclarations | src/main/java/com/vercer/engine/persist/translator/ObjectFieldTranslator.java:99-117 | Decoding changes only field values, never which field is where. |
| ObjectFieldRoundTrip.PeekChild | src/main/java/com/vercer/engine/persist/translator/ObjectFieldTranslator.java:130-133 | With the corrected part count: a property under a field's child path is named by that field. |
| ObjectFieldRoundTrip.DistinctChildPaths | src/main/java/com/vercer/engine/persist/translator/ObjectFieldTranslator.java:79-85 | No property lies under the child paths of two fields with different names. |
| ObjectFieldRoundTrip.AlignSkipsNothing | src/main/java/com/vercer/engine/persist/translator/ObjectFieldTranslator.java:122-128 | With the corrected part count: on an encoded stream, alignment to the first remaining field skips nothing. |
| ObjectFieldRoundTrip.DrainTakesHead | src/main/java/com/vercer/engine/persist/translator/ObjectFieldTranslator.java:79-85 | With the corrected part count: on an encoded stream, the drain takes exactly the first field's own properties. |
| ObjectFieldRoundTrip.DecodeEncodeRoundTrip | src/main/java/com/vercer/engine/persist/translator/ObjectFieldTranslator.java:59-120 | With the corrected part count: decoding what the walk encoded, into a fresh instance of the class, gives back every visited field that held a value. The other fields keep the fresh instance's values. |
| ObjectFieldRoundTrip.EncodeThenDecode | src/main/java/com/vercer/engine/persist/translator/ObjectFieldTranslator.java:51-57 | With the corrected part count: the same round trip through `typesafeToProperties` and `propertiesToTypesafe`. |
| ObjectFieldRoundTrip.ShortRootSkipsGrandchild | src/main/java/com/vercer/engine/persist/Path.java:142-159 | `size()` counts one part in `x.y`, which has two. With that count, the part after `x.y` in `x.y.z` is `.y`, and `y` sorts before the field name `z`. |
| ObjectFieldRoundTrip.CountedPrefixPeeksGrandchild | src/main/java/com/vercer/engine/persist/translator/ObjectFieldTranslator.java:122-133 | With the corrected count, the property `x.y.z` is named `z` below `x.y`, and aligning to the field `z` stops at it. |
| Selection.Select | src/main/java/com/google/code/twig/standard/TranslatorObjectDatastore.java:349-390 | Each translator is chosen exactly when its rule is the first that applies: entity (parent, child, independent), then id, then embed (polymorphic or plain), then native key, then default. |
| Selection.AnnotatedRelation | src/main/java/com/vercer/engine/persist/annotation/Entity.java:12-14 | The roles `Selection.Annotated` gives an `@Entity` field make the selection pick that relationship's own relation translator. |
| Selection.AssociatingVisitsKeyParts | src/main/java/com/google/code/twig/standard/TranslatorObjectDatastore.java:666-678 | While associating, `Selection.Stored` visits only fields whose translator builds the key: a plain id field goes to the id translator, a related entity to the parent relation unless it is the id. |
| Session.Put | src/main/java/com/google/code/twig/standard/TranslatorObjectDatastore.java:422-425 | After `cache(key, instance)` each maps to the other, the maps stay inverse, and no other pair changes. |
| Session.Associate | src/main/java/com/google/code/twig/standard/TranslatorObjectDatastore.java:422-425 | The instance is associated with exactly that key afterwards, so `storeOrUpdate` would update it. |
| Session.EvictInstance | src/main/java/com/google/code/twig/standard/TranslatorObjectDatastore.java:410-414 | The instance leaves the cache with its key, and every other instance keeps its key. |
| Session.EvictKey | src/main/java/com/google/code/twig/standard/TranslatorObjectDatastore.java:582-592 | The key leaves the cache with its instance, and every other key keeps its instance. |
| Session.Disassociate | src/main/java/com/google/code/twig/standard/TranslatorObjectDatastore.java:410-414 | The instance is no longer associated, so `storeOrUpdate` would store it. Every other instance keeps its key, and the maps stay inverse. |
| Session.DisassociateAll | src/main/java/com/google/code/twig/standard/TranslatorObjectDatastore.java:416-420 | No instance and no key is cached afterwards, so `storeOrUpdate` would store any instance. The empty cache is valid. |
| Session.Without | src/main/java/com/google/code/twig/standard/TranslatorObjectDatastore.java:582-592 | The reference for `deleteKeys`: removing keys keeps the maps inverse, removes exactly those keys, and removes exactly the instances cached under them. |
| Session.DeleteKeys | src/main/java/com/google/code/twig/standard/TranslatorObjectDatastore.java:582-592 | All keys go to the datastore's delete. Afterwards none of them is cached, and every other entry is as before. |
| Session.Delete | src/main/java/com/google/code/twig/standard/TranslatorObjectDatastore.java:268-278 | An unassociated instance gives an `IllegalArgumentException` and nothing is deleted. Otherwise exactly its key is deleted, the other associations remain, and a later `storeOrUpdate` of the instance stores it. |
| Session.IsAssociated | src/main/java/com/google/code/twig/standard/TranslatorObjectDatastore.java:454-465 | An instance is associated exactly when the cache holds a key for it, which is exactly when `storeOrUpdate` (`Session.StoreOrUpdate`) updates it rather than storing it. |
| Session.CreateInstance | src/main/java/com/google/code/twig/standard/TranslatorObjectDatastore.java:704-727 | A pending refresh instance is used first, then the subclass's instance, then the constructor's. The refresh slot is always cleared. The cache changes only when nothing was cached under the decoded key. |
| Session.Refresh | src/main/java/com/google/code/twig/standard/TranslatorObjectDatastore.java:287-311 | An unassociated instance gives an `IllegalStateException` with nothing changed. A missing entity gives an `IllegalStateException` and leaves the instance disassociated and pending. A found entity clears the pending slot. |
| Session.RefreshKeepsAssociation | src/main/java/com/google/code/twig/standard/TranslatorObjectDatastore.java:287-311 | A successful refresh leaves the cache as it was, so the instance keeps its key. |
| Session.EvictThenPutRestores | src/main/java/com/google/code/twig/standard/TranslatorObjectDatastore.java:296-305 | Disassociating an instance and caching it again under its key restores the cache. |
| Session.DecodeField | src/main/java/com/google/code/twig/standard/TranslatorObjectDatastore.java:729-742 | The field's decode runs at the configured depth. The previous depth is back afterwards, whether or not the decode threw. |
| Session.OnBeforeEncode | src/main/java/com/google/code/twig/standard/TranslatorObjectDatastore.java:744-755 | An `IllegalStateException` is thrown exactly when the path is not the root and the value is associated. |
| Session.FirstMatch | src/main/java/com/google/code/twig/standard/TranslatorObjectDatastore.java:776-785 | The scan finds the first field with the role, or none when no field has it. |
| Session.LookupField | src/main/java/com/google/code/twig/standard/TranslatorObjectDatastore.java:766-837 | The result is null exactly when the memo entry is the `NO_ID_FIELD` sentinel. A memo that agrees with the scan stays that way and returns the scan's answer. |
| Session.SortedAccessibleFields | src/main/java/com/google/code/twig/standard/TranslatorObjectDatastore.java:607-637 | The fields come out strictly ordered by configured name and drawn from the class's fields, with every name still present. |
| Session.KeepsFirstOfEachName | src/main/java/com/google/code/twig/standard/TranslatorObjectDatastore.java:626-631 | Of fields sharing a configured name, the `TreeSet` keeps the first declared. |
| ArrayToIterable.Converts | src/share/com.vercer.convert/com/vercer/convert/ArrayToIterable.java:60-66 | The converter applies exactly when the source has a component type for `convert` to hand its delegate, and the target's erasure is a class that `Iterable` is assignable from. Because `Iterable` is not assignable from any array class, the only targets it accepts that `convert` refuses are type variables and wildcards. |
| ArrayToIterable.ConvertsAcceptsBoundedVariable | src/share/com.vercer.convert/com/vercer/convert/ArrayToIterable.java:28-41 | A type variable bounded by `List<String>` is accepted as the target of a `String[]`, is neither a class nor a parameterized type (so `convert` throws `IllegalStateException`), and is not accepted by the restricted test. |
| ArrayToIterable.ConvertsReadableTarget | src/share/com.vercer.convert/com/vercer/convert/ArrayToIterable.java:60-66 | The restricted test accepts only classes and parameterized types, which `convert` never refuses, and it keeps every such target that `converts` accepts. |
| ArrayToIterable.ComponentType | src/share/com.vercer.convert/com/vercer/convert/ArrayToIterable.java:26 | Exactly the array types have a component type, and the array type erases to the array class of the component's erasure. |
| ArrayToIterable.Convert | src/share/com.vercer.convert/com/vercer/convert/ArrayToIterable.java:21-58 | A target that is neither parameterized nor a class is refused before any element is read. A class target, or a parameterized one whose element type is not found, receives the elements unchanged. Otherwise each element goes through the delegate with that element type, in order and with the same length. The first failing element's exception propagates. |
| ParentsCommand.GetFetchSizeAsWritten | src/main/java/com/google/code/twig/standard/StandardCommonParentsCommand.java:25-38 | The code as written: the default chunk size without options, and a refusal when the two boxed sizes are not the same reference. |
| ParentsCommand.AsWrittenRefusesEqualLargeSizes | src/main/java/com/google/code/twig/standard/StandardCommonParentsCommand.java:32-35 | Equal chunk and prefetch sizes of 500 are refused by the code as written and accepted by the corrected rule. |
| ParentsCommand.AsWrittenUnboxesNull | src/main/java/com/google/code/twig/standard/StandardCommonParentsCommand.java:32-37 | Options that set neither size end in a `NullPointerException` as written, and give the default chunk size under the corrected rule. |
| ParentsCommand.GetFetchSize | src/main/java/com/google/code/twig/standard/StandardCommonParentsCommand.java:25-38 | The default chunk size without options. Sizes that differ in value give an `IllegalArgumentException`. Equal sizes give that size, or the default when neither is set. |
| ParentsCommand.AsWrittenAgreesInsideCache | src/main/java/com/google/code/twig/standard/StandardCommonParentsCommand.java:32-37 | When at least one size is set and the chunk size is inside the `Integer` box cache, the code as written and the corrected rule agree. |

## Left out

- The App Engine datastore API is outside the model. This includes `Entity`, `Key`, `Query`, the internals of `FetchOptions`, and the service calls for put, get, delete and prepare. Keys are an opaque type, a load is the `found` oracle of `Session.Refresh`, and a delete is the sequence of keys it is sent.
- Java reflection is outside the model. This covers field lists, constructors, `setAccessible`, `field.get/set`, `isSuperType` and `Modifier`. A field is a declaration record, and the type tests and conversions are the `Hooks` functions.
- The process-wide memo maps (`classFields`, `constructors`, `superTypes`) and the owning thread are left out, because they only serve performance and concurrency. `idField` and `keyField` are kept for their sentinel.
- `getParts().iterator()` is left out: nothing in the core uses it.
- The list, map, polymorphic, relation, key, id-field, chained and fallback translators are not part of this model. Selection names them, and the walk treats each one as an opaque encode/decode pair.
- The fluent store/load/find command builders are not part of this model, and neither are `associate(instance)` and `associateAll`, which run them with the associating flag set. Neither are `refreshAll`, `activate(All)` or `deleteAll`, which loop over or page into the modelled operations.
- A property set arrives in its iteration order. The re-sorting into a `TreeSet` when the set is not already sorted is not modelled. Neither is `MergeSet`, whose merge is modelled as concatenation in field order.
- `String.compareTo` compares UTF-16 code units. The model compares `char`s, which is the same for text without surrogate pairs.
- `Session.Refresh`: a load is reduced to its root `createInstance`. The decoding of the entity's fields, and any related instances they load and cache, are not modelled.
- `Session.CreateInstance`: the key being decoded is assumed to be set. What `InstanceKeyCache` does with a null key is not part of this model.
- `ObjectFieldRoundTrip.DecodeEncodeRoundTrip`: the round trip is stated under these assumptions:
  - part names equal field names and contain no separator;
  - field names are distinct;
  - null markers are not stored;
  - each field translator decodes its own output and decodes no properties as null;
  - every stored value fits its field's types;
  - the decoder peeks with the corrected part count. As written, `size()` makes it agree only at a countable path (`PathProperties.AsWrittenPeekAgreesWhenCountable`), and below a one-character root it skips a field (see "## Findings").

  When null markers are stored, a marker sits at the enclosing path and has no part after it, so decoding it would throw.
- The constructor's retry count for non-transactional puts is not modelled.
- Session.Put: `InstanceKeyCache.cache` is not part of this model. `Put` assumes it is a forced put that drops the earlier pairings of both the key and the instance.
- Selection.Annotated: `AnnotationConfiguration` is not part of this model. `Annotated` assumes it maps `@Entity(relationship)` to the entity role plus the parent or child role that the relationship names.
- `ArrayToIterable.Converts`: `Generics` is not part of this model. A type variable erases as its leftmost bound, as Java's erasure does. The class a wildcard erases to is left free, as data of the type.

## Findings

| source | as written | input that shows it | evidently intended | confidence | as-written member | corrected member |
|---|---|---|---|---|---|---|
| src/main/java/com/google/code/twig/standard/StandardCommonParentsCommand.java:32 | `getChunkSize() != getPrefetchSize()` compares two `Integer` objects by reference | chunk and prefetch size both 500: separately boxed, so not the same object, and the call is refused | compare the two sizes by value | medium, not executed; rests on the datastore API's `FetchOptions` returning boxed `Integer`s | ParentsCommand.AsWrittenRefusesEqualLargeSizes | ParentsCommand.GetFetchSize |
| src/main/java/com/vercer/engine/persist/Path.java:149-156 | `size()` starts each search two characters past the previous separator, so it misses a separator at index 1 | the prefix `x.y` counts one part; `firstPartAfterPrefix` of `x.y.z` then returns `.y`, and decoding the object at `x.y` skips its field `z` | count one part more than there are separators in a non-empty path | high, not executed | ObjectFieldRoundTrip.ShortRootSkipsGrandchild | Paths.PartCount |
| src/share/com.vercer.convert/com/vercer/convert/ArrayToIterable.java:61-65 | `converts` accepts any target whose erasure `Iterable` is assignable from, but `convert` refuses every target that is not a class or a parameterized type (lines 38-41) | a `String[]` source and a type variable `T extends List<String>` as target: `converts` says yes, and `convert` throws `IllegalStateException` | accept only targets `convert` can read an element type from | medium, not executed; whether a caller ever passes a type variable as the target depends on code that is not part of this model | ArrayToIterable.ConvertsAcceptsBoundedVariable | ArrayToIterable.ConvertsReadableTarget |
| src/main/java/com/google/code/twig/standard/StandardCommonParentsCommand.java:36 | the chunk size is unboxed after two null sizes pass the reference test | fetch options that set neither size | keep the default chunk size | low, not executed; rests on the same `FetchOptions` accessors | ParentsCommand.AsWrittenUnboxesNull | ParentsCommand.GetFetchSize |

=== FILE: array_to_iterable.dfy ===
/** `ArrayToIterable`: the converter that turns an array into a list,
    converting each element when the target names its element type. */
module ArrayToIterable {
  import opened Outcomes

  /** A class object: a named class or an array class. */
  datatype ClassRef = Named(name: string) | ArrayOf(component: ClassRef)

  /** The reflective `Type`s the converter distinguishes. A type variable
      carries its leftmost bound (`Object` when it declares none). A wildcard
      carries the class `Generics.erase` gives it: `Generics` is not part of
      this model, so that class is left free. */
  datatype JType =
    | Raw(cls: ClassRef)
    | Parameterized(raw: ClassRef, args: seq<JType>)
    | GenericArray(component: JType)
    | Variable(name: string, bound: JType)
    | Wildcard(erasure: ClassRef)

  const ObjectClass := Named("java.lang.Object")

  /** `Generics.erase`: the class a type stands for at run time. A type
      variable erases as its leftmost bound does. */
  function Erase(t: JType): ClassRef {
    match t
    case Raw(c) => c
    case Parameterized(raw, _) => raw
    case GenericArray(component) => ArrayOf(Erase(component))
    case Variable(_, bound) => Erase(bound)
    case Wildcard(erasure) => erasure
  }

  /** The source is an array class or a generic array type. */
  predicate IsArrayType(t: JType) {
    (t.Raw? && t.cls.ArrayOf?) || t.GenericArray?
  }

  /** `Generics.getArrayComponentType`: the element type of an array type. */
  function ComponentType(t: JType): (r: Option<JType>)
    ensures r.Some? <==> IsArrayType(t)
    ensures t.GenericArray? ==> r == Some(t.component)
    ensures t.Raw? && t.cls.ArrayOf? ==> r == Some(Raw(t.cls.component))
    ensures r.Some? ==> Erase(t) == ArrayOf(Erase(r.value))
  {
    match t
    case Raw(ArrayOf(c)) => Some(Raw(c))
    case GenericArray(c) => Some(c)
    case _ => None
  }

  /** `converts`: from an array type to a type whose erasure `Iterable` is
      assignable from. `iterableAssignableFrom` is that reflective test. It
      accepts exactly the sources for which `convert` finds a component type
      to hand its delegate. As `Iterable` is not assignable from an array
      class, the only targets it accepts that `convert` refuses are type
      variables and wildcards. */
  function Converts(source: JType, target: JType, iterableAssignableFrom: ClassRef -> bool): (b: bool)
    ensures b <==> ComponentType(source).Some? && iterableAssignableFrom(Erase(target))
    ensures b && !target.Raw? && !target.Parameterized? && (forall c :: !iterableAssignableFrom(ArrayOf(c))) ==>
      target.Variable? || target.Wildcard?
  {
    ((source.Raw? && source.cls.ArrayOf?) || source.GenericArray?) && iterableAssignableFrom(Erase(target))
  }

  /** `converts` restricted to the targets `convert` can take: a class, or a
      parameterized type. It accepts nothing `convert` refuses and drops
      nothing `convert` handles. */
  function ConvertsReadableTarget(source: JType, target: JType, iterableAssignableFrom: ClassRef -> bool): (b: bool)
    ensures b ==> target.Raw? || target.Parameterized?
    ensures b ==> Converts(source, target, iterableAssignableFrom)
    ensures Converts(source, target, iterableAssignableFrom) && (target.Raw? || target.Parameterized?) ==> b
  {
    IsArrayType(source) && (target.Raw? || target.Parameterized?) && iterableAssignableFrom(Erase(target))
  }

  /** A type variable bounded by `List<String>` erases to `List`, so
      `converts` accepts it as the target of a `String[]`; `convert` then
      refuses it, being neither a class nor a parameterized type. The
      restricted test does not accept it. */
  lemma ConvertsAcceptsBoundedVariable(iterableAssignableFrom: ClassRef -> bool)
    requires iterableAssignableFrom(Named("java.util.List"))
    ensures var target := Variable("T", Parameterized(Named("java.util.List"), [Raw(Named("java.lang.String"))]));
      && Converts(Raw(ArrayOf(Named("java.lang.String"))), target, iterableAssignableFrom)
      && !target.Raw? && !target.Parameterized?
      && !ConvertsReadableTarget(Raw(ArrayOf(Named("java.lang.String"))), target, iterableAssignableFrom)
  {
  }

  /** A `List<String>` target is converted to from `String[]` and from a
      generic array, but never from a plain class. */
  lemma ConvertsFromArraysOnly(iterableAssignableFrom: ClassRef -> bool, element: JType)
    requires iterableAssignableFrom(Named("java.util.List"))
    ensures Converts(Raw(ArrayOf(Named("java.lang.String"))), Parameterized(Named("java.util.List"), [element]), iterableAssignableFrom)
    ensures Converts(GenericArray(Variable("T", Raw(ObjectClass))), Raw(Named("java.util.List")), iterableAssignableFrom)
    ensures !Converts(Raw(Named("java.lang.String")), Raw(Named("java.util.List")), iterableAssignableFrom)
  {
  }

  /** `convert`: the element type of a parameterized target is looked up
      (`elementOf`, which is `Generics.getTypeParameter` for `Iterable`'s
      type variable and may find none) and each array element goes through
      `delegate` with the source's component type and that element type; a
      raw class target, or a parameterized one whose element type is not
      found, takes the elements as they are; any other target is refused
      before an element is read. The result keeps the array's length and
      order. */
  method Convert<V>(values: seq<V>, source: JType, target: JType, elementOf: JType -> Option<JType>,
                    delegate: (V, Option<JType>, JType) -> Result<V>) returns (r: Result<seq<V>>)
    ensures !target.Parameterized? && !target.Raw? ==> r == Throws(IllegalState)
    ensures target.Raw? || (target.Parameterized? && elementOf(target).None?) ==> r == Ok(values)
    ensures target.Parameterized? && elementOf(target).Some? ==>
      (r.Ok? <==> forall i :: 0 <= i < |values| ==> delegate(values[i], ComponentType(source), elementOf(target).value).Ok?)
    ensures target.Parameterized? && elementOf(target).Some? && r.Ok? ==>
      && |r.value| == |values|
      && forall i :: 0 <= i < |values| ==> r.value[i] == delegate(values[i], ComponentType(source), elementOf(target).value).value
    ensures target.Parameterized? && elementOf(target).Some? && r.Throws? ==>
      exists i :: 0 <= i < |values| && delegate(values[i], ComponentType(source), elementOf(target).value) == Throws(r.error)
        && forall j :: 0 <= j < i ==> delegate(values[j], ComponentType(source), elementOf(target).value).Ok?
  {
    var targetElement: Option<JType>;
    if target.Parameterized? {
      targetElement := elementOf(target);
    } else if target.Raw? {
      targetElement := None;
    } else {
      return Throws(IllegalState);
    }
    var sourceElement := ComponentType(source);
    var out: seq<V> := [];
    var i := 0;
    while i < |values|
      invariant 0 <= i <= |values| && |out| == i
      invariant targetElement.None? ==> out == values[..i]
      invariant target.Parameterized? ==> targetElement == elementOf(target)
      invariant target.Raw? ==> targetElement.None?
      invariant targetElement.Some? ==> forall j :: 0 <= j < i ==>
        delegate(values[j], sourceElement, targetElement.value).Ok? &&
        out[j] == delegate(values[j], sourceElement, targetElement.value).value
    {
      var value := values[i];
      if targetElement.Some? {
        var converted := delegate(value, sourceElement, targetElement.value);
        if converted.Throws? {
          return Throws(converted.error);
        }
        value := converted.value;
      }
      out := out + [value];
      i := i + 1;
    }
    assert targetElement.None? ==> values[..i] == values;
    return Ok(out);
  }
}

=== FILE: field_order.dfy ===
/** The two orders fields are walked in: `Collections.sort` by field name (a
    stable sort keeping every field) in `ObjectFieldTranslator.getSortedFields`,
    and a `TreeSet` keyed by configured name (which keeps only the first field
    of each name) in `getSortedAccessibleFields`. Both compare names with
    `String.compareTo`. */
module FieldOrder {
  import Strings

  ghost predicate SortedBy<T>(s: seq<T>, key: T -> string) {
    forall i, j :: 0 <= i < j < |s| ==> Strings.Compare(key(s[i]), key(s[j])) <= 0
  }

  ghost predicate StrictlySortedBy<T>(s: seq<T>, key: T -> string) {
    forall i, j :: 0 <= i < j < |s| ==> Strings.Compare(key(s[i]), key(s[j])) < 0
  }

  /** Inserts `x` after every element whose key does not sort after its own. */
  function Insert<T(!new)>(x: T, s: seq<T>, key: T -> string): (r: seq<T>)
    requires SortedBy(s, key)
    ensures SortedBy(r, key)
    ensures multiset(r) == multiset(s) + multiset{x}
    ensures forall y :: y in r <==> y == x || y in s
  {
    if |s| == 0 then [x]
    else if Strings.Compare(key(x), key(s[0])) < 0 then
      Strings.CompareTransitiveLeChain(key, x, s);
      SortedCons(x, s, key);
      [x] + s
    else
      var rest := Insert(x, s[1..], key);
      InsertBehind(x, s, rest, key);
      [s[0]] + rest
  }

  /** The head of a sorted sequence can lead the insertion of a later key
      into its tail. */
  lemma InsertBehind<T>(x: T, s: seq<T>, rest: seq<T>, key: T -> string)
    requires SortedBy(s, key) && |s| > 0 && Strings.Compare(key(x), key(s[0])) >= 0
    requires SortedBy(rest, key)
    requires multiset(rest) == multiset(s[1..]) + multiset{x}
    requires forall y :: y in rest <==> y == x || y in s[1..]
    ensures SortedBy([s[0]] + rest, key)
    ensures multiset([s[0]] + rest) == multiset(s) + multiset{x}
    ensures forall y :: y in [s[0]] + rest <==> y == x || y in s
  {
    Strings.CompareAntisymmetric(key(x), key(s[0]));
    assert s == [s[0]] + s[1..];
    forall j | 0 <= j < |rest|
      ensures Strings.Compare(key(s[0]), key(rest[j])) <= 0
    {
      var y := rest[j];
      assert y in rest;
      if y != x {
        var k :| 0 <= k < |s[1..]| && s[1..][k] == y;
        assert s[k + 1] == y;
      }
    }
    SortedCons(s[0], rest, key);
  }

  /** An element whose key sorts no later than every key of a sorted
      sequence can lead it. */
  lemma SortedCons<T>(a: T, rest: seq<T>, key: T -> string)
    requires SortedBy(rest, key)
    requires forall j :: 0 <= j < |rest| ==> Strings.Compare(key(a), key(rest[j])) <= 0
    ensures SortedBy([a] + rest, key)
  {
    var r := [a] + rest;
    forall i, j | 0 <= i < j < |r|
      ensures Strings.Compare(key(r[i]), key(r[j])) <= 0
    {
      assert r[j] == rest[j - 1];
      if i > 0 {
        assert r[i] == rest[i - 1];
      }
    }
  }

  /** `Collections.sort` of a field list by name: a sorted permutation that
      keeps fields with equal names in their original order (the sort is
      stable). */
  function Sort<T(!new)>(s: seq<T>, key: T -> string): (r: seq<T>)
    ensures SortedBy(r, key)
    ensures multiset(r) == multiset(s)
    ensures |r| == |s|
    ensures forall k :: WithKey(r, k, key) == WithKey(s, k, key)
  {
    if |s| == 0 then []
    else
      var init := s[..|s| - 1];
      var r := Insert(s[|s| - 1], Sort(init, key), key);
      assert s == init + [s[|s| - 1]];
      assert |r| == |multiset(r)|;
      SortStep(init, s[|s| - 1], Sort(init, key), key);
      r
  }

  /** The elements of `s` whose key is `k`, in their order in `s`. */
  function WithKey<T>(s: seq<T>, k: string, key: T -> string): seq<T> {
    if |s| == 0 then []
    else (if key(s[0]) == k then [s[0]] else []) + WithKey(s[1..], k, key)
  }

  lemma {:induction false} WithKeyAppend<T>(a: seq<T>, b: seq<T>, k: string, key: T -> string)
    ensures WithKey(a + b, k, key) == WithKey(a, k, key) + WithKey(b, k, key)
    decreases |a|
  {
    if |a| > 0 {
      assert (a + b)[1..] == a[1..] + b;
      WithKeyAppend(a[1..], b, k, key);
    } else {
      assert a + b == b;
    }
  }

  lemma {:induction false} WithKeyNone<T>(s: seq<T>, k: string, key: T -> string)
    requires forall j :: 0 <= j < |s| ==> key(s[j]) != k
    ensures WithKey(s, k, key) == []
    decreases |s|
  {
    if |s| > 0 {
      WithKeyNone(s[1..], k, key);
    }
  }

  /** Insertion puts `x` behind every element with the same key. */
  lemma {:induction false} InsertKeepsOrder<T(!new)>(x: T, s: seq<T>, key: T -> string, k: string)
    requires SortedBy(s, key)
    ensures WithKey(Insert(x, s, key), k, key) == WithKey(s, k, key) + (if key(x) == k then [x] else [])
    decreases |s|
  {
    if |s| == 0 {
      assert [x][1..] == [];
    } else if Strings.Compare(key(x), key(s[0])) < 0 {
      assert Insert(x, s, key) == [x] + s;
      FrontKeepsOrder(x, s, key, k);
    } else {
      var rest := Insert(x, s[1..], key);
      assert Insert(x, s, key) == [s[0]] + rest;
      InsertKeepsOrder(x, s[1..], key, k);
      BehindKeepsOrder(s, rest, k, key, if key(x) == k then [x] else []);
    }
  }

  /** A head kept in front of an insertion into the tail keeps its place
      among equal keys. */
  lemma BehindKeepsOrder<T>(s: seq<T>, rest: seq<T>, k: string, key: T -> string, xs: seq<T>)
    requires |s| > 0
    requires WithKey(rest, k, key) == WithKey(s[1..], k, key) + xs
    ensures WithKey([s[0]] + rest, k, key) == WithKey(s, k, key) + xs
  {
    WithKeyCons(s[0], rest, k, key);
    WithKeyCons(s[0], s[1..], k, key);
    assert [s[0]] + s[1..] == s;
  }

  lemma WithKeyCons<T>(a: T, t: seq<T>, k: string, key: T -> string)
    ensures WithKey([a] + t, k, key) == (if key(a) == k then [a] else []) + WithKey(t, k, key)
  {
    assert ([a] + t)[1..] == t;
  }

  /** An element whose key sorts before all of a sorted sequence can lead it
      without passing an equal key. */
  lemma FrontKeepsOrder<T>(x: T, s: seq<T>, key: T -> string, k: string)
    requires SortedBy(s, key) && |s| > 0 && Strings.Compare(key(x), key(s[0])) < 0
    ensures WithKey([x] + s, k, key) == WithKey(s, k, key) + (if key(x) == k then [x] else [])
  {
    WithKeyCons(x, s, k, key);
    if key(x) == k {
      Strings.CompareTransitiveChain(key, x, s);
      forall j | 0 <= j < |s|
        ensures key(s[j]) != k
      {
        Strings.CompareZeroIffEqual(key(x), key(s[j]));
      }
      WithKeyNone(s, k, key);
    }
  }

  /** One step of the sort keeps equal keys in order. */
  lemma SortStep<T(!new)>(init: seq<T>, x: T, sorted: seq<T>, key: T -> string)
    requires SortedBy(sorted, key)
    requires forall k :: WithKey(sorted, k, key) == WithKey(init, k, key)
    ensures forall k :: WithKey(Insert(x, sorted, key), k, key) == WithKey(init + [x], k, key)
  {
    forall k
      ensures WithKey(Insert(x, sorted, key), k, key) == WithKey(init + [x], k, key)
    {
      InsertKeepsOrder(x, sorted, key, k);
      WithKeyAppend(init, [x], k, key);
      assert [x][1..] == [];
    }
  }

  ghost predicate HasKey<T>(s: seq<T>, k: string, key: T -> string) {
    exists y :: y in s && key(y) == k
  }

  /** `TreeSet.add` under a comparator: an element whose key is already present
      is not added. */
  function TreeInsert<T(!new)>(x: T, s: seq<T>, key: T -> string): (r: seq<T>)
    requires StrictlySortedBy(s, key)
    ensures StrictlySortedBy(r, key)
    ensures forall y :: y in r <==> y in s || (y == x && !HasKey(s, key(x), key))
    ensures forall k :: HasKey(r, k, key) <==> HasKey(s, k, key) || k == key(x)
  {
    if |s| == 0 then
      assert forall k :: HasKey([x], k, key) <==> k == key(x) by {
        forall k { HasKeyCons(x, [], k, key); }
      }
      [x]
    else
      var c := Strings.Compare(key(x), key(s[0]));
      if c < 0 then
        TreeInsertFront(x, s, key);
        [x] + s
      else if c == 0 then
        Strings.CompareZeroIffEqual(key(x), key(s[0]));
        assert HasKey(s, key(x), key) by { assert s[0] in s; }
        s
      else
        var rest := TreeInsert(x, s[1..], key);
        TreeInsertBehind(x, s, rest, key);
        [s[0]] + rest
  }

  /** A key occurs in a sequence with a head iff it is the head's or occurs
      in the tail. */
  lemma HasKeyCons<T>(a: T, t: seq<T>, k: string, key: T -> string)
    ensures HasKey([a] + t, k, key) <==> key(a) == k || HasKey(t, k, key)
  {
    if HasKey([a] + t, k, key) {
      var y :| y in [a] + t && key(y) == k;
      if y != a {
        assert y in t;
      }
    }
    if key(a) == k {
      assert a in [a] + t;
    }
    if HasKey(t, k, key) {
      var y :| y in t && key(y) == k;
      assert y in [a] + t;
    }
  }

  /** An element whose key sorts strictly before every key of a strictly
      sorted sequence can lead it. */
  lemma StrictlySortedCons<T>(a: T, rest: seq<T>, key: T -> string)
    requires StrictlySortedBy(rest, key)
    requires forall j :: 0 <= j < |rest| ==> Strings.Compare(key(a), key(rest[j])) < 0
    ensures StrictlySortedBy([a] + rest, key)
  {
    var r := [a] + rest;
    forall i, j | 0 <= i < j < |r|
      ensures Strings.Compare(key(r[i]), key(r[j])) < 0
    {
      assert r[j] == rest[j - 1];
      if i > 0 {
        assert r[i] == rest[i - 1];
      }
    }
  }

  /** A key sorting before the first of a strictly sorted sequence is new,
      and its element goes in front. */
  lemma TreeInsertFront<T>(x: T, s: seq<T>, key: T -> string)
    requires StrictlySortedBy(s, key) && |s| > 0 && Strings.Compare(key(x), key(s[0])) < 0
    ensures StrictlySortedBy([x] + s, key)
    ensures !HasKey(s, key(x), key)
    ensures forall y :: y in [x] + s <==> y in s || y == x
    ensures forall k :: HasKey([x] + s, k, key) <==> HasKey(s, k, key) || k == key(x)
  {
    Strings.CompareTransitiveChain(key, x, s);
    StrictlySortedCons(x, s, key);
    if HasKey(s, key(x), key) {
      var y :| y in s && key(y) == key(x);
      var j :| 0 <= j < |s| && s[j] == y;
      Strings.CompareZeroIffEqual(key(x), key(s[j]));
      assert false;
    }
    forall k
      ensures HasKey([x] + s, k, key) <==> HasKey(s, k, key) || k == key(x)
    {
      HasKeyCons(x, s, k, key);
    }
  }

  /** A key sorting after the first of a strictly sorted sequence is
      inserted into its tail, behind the head. */
  lemma TreeInsertBehind<T>(x: T, s: seq<T>, rest: seq<T>, key: T -> string)
    requires StrictlySortedBy(s, key) && |s| > 0 && Strings.Compare(key(x), key(s[0])) > 0
    requires StrictlySortedBy(rest, key)
    requires forall y :: y in rest <==> y in s[1..] || (y == x && !HasKey(s[1..], key(x), key))
    requires forall k :: HasKey(rest, k, key) <==> HasKey(s[1..], k, key) || k == key(x)
    ensures StrictlySortedBy([s[0]] + rest, key)
    ensures forall y :: y in [s[0]] + rest <==> y in s || (y == x && !HasKey(s, key(x), key))
    ensures forall k :: HasKey([s[0]] + rest, k, key) <==> HasKey(s, k, key) || k == key(x)
  {
    Strings.CompareAntisymmetric(key(x), key(s[0]));
    Strings.CompareZeroIffEqual(key(x), key(s[0]));
    assert s == [s[0]] + s[1..];
    forall j | 0 <= j < |rest|
      ensures Strings.Compare(key(s[0]), key(rest[j])) < 0
    {
      var y := rest[j];
      assert y in rest;
      if y != x {
        var k :| 0 <= k < |s[1..]| && s[1..][k] == y;
        assert s[k + 1] == y;
      }
    }
    StrictlySortedCons(s[0], rest, key);
    HasKeyCons(s[0], s[1..], key(x), key);
    forall k
      ensures HasKey([s[0]] + rest, k, key) <==> HasKey(s, k, key) || k == key(x)
    {
      HasKeyCons(s[0], rest, k, key);
      HasKeyCons(s[0], s[1..], k, key);
    }
  }

  /** The fields of a `TreeSet` built by adding `s` in order. */
  function TreeSetOf<T(!new)>(s: seq<T>, key: T -> string): (r: seq<T>)
    ensures StrictlySortedBy(r, key)
    ensures forall y :: y in r ==> y in s
    ensures forall k :: HasKey(r, k, key) <==> HasKey(s, k, key)
  {
    if |s| == 0 then []
    else
      var init := s[..|s| - 1];
      var r := TreeInsert(s[|s| - 1], TreeSetOf(init, key), key);
      assert s == init + [s[|s| - 1]];
      r
  }

  /** Of several fields with the same key the `TreeSet` keeps the first one
      added. */
  lemma {:induction false} TreeSetKeepsFirst<T(!new)>(s: seq<T>, key: T -> string, y: T)
    requires y in TreeSetOf(s, key)
    ensures exists i :: 0 <= i < |s| && s[i] == y && forall j :: 0 <= j < i ==> key(s[j]) != key(y)
    decreases |s|
  {
    var init := s[..|s| - 1];
    var x := s[|s| - 1];
    assert s == init + [x];
    if y in TreeSetOf(init, key) {
      TreeSetKeepsFirst(init, key, y);
      var i :| 0 <= i < |init| && init[i] == y && forall j :: 0 <= j < i ==> key(init[j]) != key(y);
      forall j | 0 <= j < i
        ensures key(s[j]) != key(y)
      {
        assert s[j] == init[j];
      }
      assert s[i] == y;
    } else {
      assert y == x && !HasKey(TreeSetOf(init, key), key(x), key);
      assert !HasKey(init, key(x), key);
      forall j | 0 <= j < |s| - 1
        ensures key(s[j]) != key(y)
      {
        assert s[j] == init[j] && init[j] in init;
      }
      assert s[|s| - 1] == y;
    }
  }
}

=== FILE: object_fields.dfy ===
/** `ObjectFieldTranslator`: encodes an instance by walking its fields in name
    order and merging each field translator's properties, and decodes by a
    single merge-style pass over (sorted fields) x (sorted properties). */
module ObjectFields {
  import opened Outcomes
  import Strings
  import opened Paths
  import FieldOrder

  /** A field declaration, as reflection sees it: the declaring class, the
      name (`field.getName()`, the sort key), the name written into child paths
      (`fieldToPartName(field)`) and the `transient` modifier. */
  datatype Decl = Decl(owner: string, name: string, partName: string, transient: bool)

  /** A field of an instance: its declaration and the value it holds. */
  datatype Field<V> = Field(decl: Decl, value: Option<V>)

  /** A datastore property: a path, a native value or null, and the index flag. */
  datatype Property<N> = Property(path: Path, value: Option<N>, indexed: bool)

  /** The abstract members of the translator and the collaborators it calls:
      - `stored`, `indexed`: the subclass's `stored(field)` and `indexed(field)`;
      - `nullStored`: `isNullStored()`;
      - `fitsDeclared`, `convertDeclared`: the `isSuperType` test against the
        declared type and the conversion chain, used on encode;
      - `fits`, `convert`: the same against the generic type, used on decode;
      - `settable`: whether `field.set` accepts the value;
      - `encode`, `decode`: `translator(field)`'s two methods. */
  datatype Hooks<!V, !N> = Hooks(
    stored: Decl -> bool,
    indexed: Decl -> bool,
    nullStored: bool,
    fitsDeclared: (Decl, V) -> bool,
    convertDeclared: (Decl, V) -> Result<V>,
    fits: (Decl, V) -> bool,
    convert: (Decl, V) -> Result<V>,
    settable: (Decl, V) -> bool,
    encode: (Decl, V, Path, bool) -> Result<seq<Property<N>>>,
    decode: (Decl, seq<Property<N>>, Path) -> Result<Option<V>>
  )

  function FieldName<V>(f: Field<V>): string {
    f.decl.name
  }

  /** `getSortedFields`: the class's fields sorted by name. */
  function SortedFields<V(!new)>(instance: seq<Field<V>>): (r: seq<Field<V>>)
    ensures FieldOrder.SortedBy(r, FieldName)
    ensures multiset(r) == multiset(instance)
    ensures forall k :: FieldOrder.WithKey(r, k, FieldName) == FieldOrder.WithKey(instance, k, FieldName)
  {
    FieldOrder.Sort(instance, FieldName)
  }

  /** Both walks act only on fields that are not transient and are stored. */
  predicate Visited<V, N>(d: Decl, h: Hooks<V, N>) {
    !d.transient && h.stored(d)
  }

  /** Every child translator writes only below the path it is given. */
  ghost predicate ChildrenStayUnder<V(!new), N>(h: Hooks<V, N>) {
    forall d, v, p, b :: h.encode(d, v, p, b).Ok? ==>
      forall q :: q in h.encode(d, v, p, b).value ==> HasPrefix(q.path, p)
  }

  lemma StaysUnder<V(!new), N>(h: Hooks<V, N>, d: Decl, v: V, p: Path, b: bool)
    ensures ChildrenStayUnder(h) && h.encode(d, v, p, b).Ok? ==>
      forall q :: q in h.encode(d, v, p, b).value ==> HasPrefix(q.path, p)
  {
  }

  /** Where a property encoded for field `f` can lie: a null field's marker
      sits at the enclosing path, a non-null field's properties below its
      child path. */
  ghost predicate FromField<V, N>(q: Property<N>, f: Field<V>, path: Path, indexed: bool, h: Hooks<V, N>) {
    && Visited(f.decl, h)
    && (f.value.None? ==> h.nullStored && q == Property(path, None, indexed))
    && (f.value.Some? ==> HasPrefix(q.path, FieldPath(path, f.decl.partName)))
  }

  /** One field's share of `typesafeToProperties`. */
  function EncodeField<V(!new), N>(f: Field<V>, path: Path, indexed: bool, h: Hooks<V, N>): (r: Result<seq<Property<N>>>)
    ensures !Visited(f.decl, h) ==> r == Ok([])
    ensures r.Ok? && ChildrenStayUnder(h) ==> forall q :: q in r.value ==> FromField(q, f, path, indexed, h)
  {
    var d := f.decl;
    if !Visited(d, h) then Ok([])
    else
      match f.value
      case None => Ok(if h.nullStored then [Property(path, None, indexed)] else [])
      case Some(v) =>
        var value :- if h.fitsDeclared(d, v) then Ok(v) else h.convertDeclared(d, v);
        var out := h.encode(d, value, FieldPath(path, d.partName), h.indexed(d));
        StaysUnder(h, d, value, FieldPath(path, d.partName), h.indexed(d));
        out
  }

  /** Sorting neither adds nor drops a field. */
  lemma SameMembers<T>(a: seq<T>, b: seq<T>)
    requires multiset(a) == multiset(b)
    ensures forall x :: x in a <==> x in b
  {
    forall x ensures x in a <==> x in b {
      assert x in a <==> x in multiset(a);
      assert x in b <==> x in multiset(b);
    }
  }

  /** The loop of `typesafeToProperties`: the merged properties of the fields
      in the order given. */
  function EncodeFields<V(!new), N>(fields: seq<Field<V>>, path: Path, indexed: bool, h: Hooks<V, N>): (r: Result<seq<Property<N>>>)
    ensures (forall f :: f in fields ==> !Visited(f.decl, h)) ==> r == Ok([])
    ensures r.Ok? && ChildrenStayUnder(h) ==>
      forall q :: q in r.value ==> exists f :: f in fields && FromField(q, f, path, indexed, h)
  {
    if |fields| == 0 then Ok([])
    else
      var head :- EncodeField(fields[0], path, indexed, h);
      var tail :- EncodeFields(fields[1..], path, indexed, h);
      assert forall f :: f in fields[1..] ==> f in fields;
      Ok(head + tail)
  }

  /** `typesafeToProperties`: the fields are walked in name order, and any
      failure surfaces as an `IllegalStateException`. */
  function Encode<V(!new), N>(instance: seq<Field<V>>, path: Path, indexed: bool, h: Hooks<V, N>): (r: Result<seq<Property<N>>>)
    ensures r.Throws? ==> r.error == IllegalState
    ensures r.Ok? <==> EncodeFields(SortedFields(instance), path, indexed, h).Ok?
    ensures (forall f :: f in instance ==> !Visited(f.decl, h)) ==> r == Ok([])
    ensures r.Ok? && ChildrenStayUnder(h) ==>
      forall q :: q in r.value ==> exists f :: f in instance && FromField(q, f, path, indexed, h)
  {
    SameMembers(SortedFields(instance), instance);
    match EncodeFields(SortedFields(instance), path, indexed, h)
    case Ok(props) => Ok(props)
    case Throws(_) => Throws(IllegalState)
  }

  /** `peekFieldName`: the name of the part that follows the prefix. A path
      with no part there makes `firstPartAfterPrefix` return null. */
  function PeekFieldName<N>(q: Property<N>, prefix: Path): Result<string> {
    match FirstPartAfterPrefix(q.path, prefix)
    case None => Throws(NullPointer)
    case Some(part) => part.GetName()
  }

  /** The property names a part that sorts strictly before `name`. */
  ghost predicate SortsBefore<N>(q: Property<N>, prefix: Path, name: string) {
    PeekFieldName(q, prefix).Ok? && Strings.Compare(PeekFieldName(q, prefix).value, name) < 0
  }

  /** `alignPropertiesToField`: how many properties are skipped because their
      part name sorts before the field's name. */
  function Align<N>(props: seq<Property<N>>, prefix: Path, name: string): (r: Result<nat>)
    ensures r.Ok? ==> r.value <= |props|
    ensures r.Ok? ==> forall k :: 0 <= k < r.value ==> SortsBefore(props[k], prefix, name)
    ensures r.Ok? && r.value < |props| ==>
      PeekFieldName(props[r.value], prefix).Ok? && !SortsBefore(props[r.value], prefix, name)
    ensures r.Throws? ==> exists k :: 0 <= k < |props| && PeekFieldName(props[k], prefix).Throws?
  {
    if |props| == 0 then Ok(0)
    else
      var n :- PeekFieldName(props[0], prefix);
      if Strings.Compare(n, name) < 0 then
        var skipped :- Align(props[1..], prefix, name);
        Ok(skipped + 1)
      else
        Ok(0)
  }

  /** Alignment stops with exception `e` at property `k`: every earlier
      property sorts before the field, and peeking `k` throws `e`. */
  ghost predicate AlignThrowsAt<N>(props: seq<Property<N>>, prefix: Path, name: string, k: int, e: Exception) {
    && 0 <= k < |props|
    && (forall j :: 0 <= j < k ==> SortsBefore(props[j], prefix, name))
    && PeekFieldName(props[k], prefix) == Throws(e)
  }

  /** When alignment throws, it is at the first property whose peek throws,
      every property before it sorting before the field. */
  lemma {:induction false} AlignThrowsWitness<N>(props: seq<Property<N>>, prefix: Path, name: string)
    ensures Align(props, prefix, name).Throws? ==>
      exists k :: AlignThrowsAt(props, prefix, name, k, Align(props, prefix, name).error)
    decreases |props|
  {
    if Align(props, prefix, name).Ok? {
      return;
    }
    var e := Align(props, prefix, name).error;
    if PeekFieldName(props[0], prefix).Throws? {
      assert AlignThrowsAt(props, prefix, name, 0, e);
    } else {
      AlignThrowsWitness(props[1..], prefix, name);
      AlignThrowsLater(props, prefix, name, e);
    }
  }

  lemma AlignThrowsLater<N>(props: seq<Property<N>>, prefix: Path, name: string, e: Exception)
    requires |props| > 0 && SortsBefore(props[0], prefix, name)
    requires exists k :: AlignThrowsAt(props[1..], prefix, name, k, e)
    ensures exists k :: AlignThrowsAt(props, prefix, name, k, e)
  {
    var k :| AlignThrowsAt(props[1..], prefix, name, k, e);
    assert AlignThrowsAt(props, prefix, name, k + 1, e);
  }

  /** The drain loop of `activate`: the length of the leading run of
      properties whose path has the child path as a prefix. */
  function Drain<N>(props: seq<Property<N>>, childPath: Path): (r: nat)
    ensures r <= |props|
    ensures forall k :: 0 <= k < r ==> HasPrefix(props[k].path, childPath)
    ensures r < |props| ==> !HasPrefix(props[r].path, childPath)
  {
    if |props| > 0 && HasPrefix(props[0].path, childPath) then 1 + Drain(props[1..], childPath) else 0
  }

  /** Setting a decoded value: null leaves the field as it is; a value that
      does not fit the field's generic type is converted first; `field.set`
      failing surfaces as an `IllegalStateException`. */
  function Assign<V, N>(f: Field<V>, decoded: Option<V>, h: Hooks<V, N>): (r: Result<Field<V>>)
    ensures decoded.None? ==> r == Ok(f)
    ensures r.Ok? ==> r.value == f.(value := r.value.value)
    ensures r.Ok? && decoded.Some? ==> r.value.value.Some? && h.settable(f.decl, r.value.value.value)
    ensures r.Ok? && decoded.Some? && h.fits(f.decl, decoded.value) ==> r.value.value == decoded
    ensures r.Ok? && decoded.Some? && !h.fits(f.decl, decoded.value) ==>
      h.convert(f.decl, decoded.value) == Ok(r.value.value.value)
  {
    match decoded
    case None => Ok(f)
    case Some(v) =>
      var w :- if h.fits(f.decl, v) then Ok(v) else h.convert(f.decl, v);
      if h.settable(f.decl, w) then Ok(f.(value := Some(w))) else Throws(IllegalState)
  }

  /** What one field's turn of the decode loop consumed: the properties
      alignment skipped, then the slice handed to the field's translator. */
  datatype Step<N> = Step(skipped: seq<Property<N>>, slice: seq<Property<N>>)

  /** The outcome of `activate`: the instance's fields after assignment, one step
      per field, and the properties no field consumed. */
  datatype Activation<V, N> = Activation(fields: seq<Field<V>>, steps: seq<Step<N>>, rest: seq<Property<N>>)

  function Consumed<N>(steps: seq<Step<N>>): seq<Property<N>> {
    if |steps| == 0 then [] else steps[0].skipped + steps[0].slice + Consumed(steps[1..])
  }

  /** One field's turn is well behaved, given the properties `after` it
      leaves: the skipped properties sort before the field's name and
      alignment stopped at the first one that does not; the slice fits the
      field, and for a visited field it is the whole run of properties under
      the field's child path. */
  ghost predicate StepFits<V, N>(f: Field<V>, g: Field<V>, st: Step<N>, after: seq<Property<N>>, path: Path, h: Hooks<V, N>) {
    && SkippedBefore(st.skipped, path, f.decl.name)
    && StopsAt(st.slice + after, path, f.decl.name)
    && SliceFits(f, g, st.slice, path, h)
    && (Visited(f.decl, h) ==> RunEnds(after, FieldPath(path, f.decl.partName)))
  }

  ghost predicate SkippedBefore<N>(skipped: seq<Property<N>>, path: Path, name: string) {
    forall q :: q in skipped ==> SortsBefore(q, path, name)
  }

  /** The first property after alignment, if any, names a part that does not
      sort before `name`. */
  ghost predicate StopsAt<N>(aligned: seq<Property<N>>, path: Path, name: string) {
    |aligned| > 0 ==> PeekFieldName(aligned[0], path).Ok? && !SortsBefore(aligned[0], path, name)
  }

  /** The first property after a drained slice, if any, is not below the
      child path. */
  ghost predicate RunEnds<N>(after: seq<Property<N>>, childPath: Path) {
    |after| > 0 ==> !HasPrefix(after[0].path, childPath)
  }

  /** A slice lies below the field's child path; an unvisited field gets no
      slice and keeps its value, and a visited one holds its translator's
      result for exactly that slice. */
  ghost predicate SliceFits<V, N>(f: Field<V>, g: Field<V>, slice: seq<Property<N>>, path: Path, h: Hooks<V, N>) {
    var d := f.decl;
    && (forall q :: q in slice ==> HasPrefix(q.path, FieldPath(path, d.partName)))
    && (!Visited(d, h) ==> slice == [] && g == f)
    && (Visited(d, h) ==>
          && h.decode(d, slice, FieldPath(path, d.partName)).Ok?
          && Assign(f, h.decode(d, slice, FieldPath(path, d.partName)).value, h) == Ok(g))
  }

  /** `StepFits` for every field, its result and its step, pairwise; each step
      leaves the later steps' properties and then `rest`. */
  ghost predicate StepsFit<V, N>(fields: seq<Field<V>>, results: seq<Field<V>>, steps: seq<Step<N>>, rest: seq<Property<N>>, path: Path, h: Hooks<V, N>) {
    && |results| == |fields| && |steps| == |fields|
    && (|fields| > 0 ==>
          && StepFits(fields[0], results[0], steps[0], Consumed(steps[1..]) + rest, path, h)
          && StepsFit(fields[1..], results[1..], steps[1..], rest, path, h))
  }

  /** One turn of the loop of `activate`: align the property stream to the
      field; if the field is visited, drain its slice, decode it with the
      field's translator and assign the result. Yields the field after the
      turn, what the turn consumed, and the properties left. */
  function ActivateField<V, N>(f: Field<V>, props: seq<Property<N>>, path: Path, h: Hooks<V, N>): (r: Result<(Field<V>, Step<N>, seq<Property<N>>)>)
    ensures r.Ok? ==> r.value.1.skipped + r.value.1.slice + r.value.2 == props
    ensures r.Ok? ==> StepFits(f, r.value.0, r.value.1, r.value.2, path, h)
  {
    var d := f.decl;
    var skip :- Align(props, path, d.name);
    var t :- TakeSlice(f, props[skip..], path, h);
    SkippedSortBefore(props, skip, path, d.name);
    SplitRejoins(props, skip, t.1, t.2);
    assert t.1 + t.2 == props[skip..];
    Ok((t.0, Step(props[..skip], t.1), t.2))
  }

  /** Splitting a sequence at `k` and splitting its suffix again loses nothing. */
  lemma SplitRejoins<T>(s: seq<T>, k: nat, a: seq<T>, b: seq<T>)
    requires k <= |s| && a + b == s[k..]
    ensures s[..k] + a + b == s
  {
    assert s == s[..k] + s[k..];
  }

  /** The properties alignment skips all name parts sorting before `name`. */
  lemma SkippedSortBefore<N>(props: seq<Property<N>>, skip: nat, path: Path, name: string)
    requires Align(props, path, name) == Ok(skip)
    ensures SkippedBefore(props[..skip], path, name)
  {
    forall q | q in props[..skip]
      ensures SortsBefore(q, path, name)
    {
      var k :| 0 <= k < skip && props[..skip][k] == q;
      assert props[k] == q;
    }
  }

  /** The part of a turn after alignment: an unvisited field takes nothing;
      a visited one takes the drained slice, decodes it and assigns the
      value. */
  function TakeSlice<V, N>(f: Field<V>, aligned: seq<Property<N>>, path: Path, h: Hooks<V, N>): (r: Result<(Field<V>, seq<Property<N>>, seq<Property<N>>)>)
    ensures r.Ok? ==> r.value.1 + r.value.2 == aligned
    ensures r.Ok? ==> SliceFits(f, r.value.0, r.value.1, path, h)
    ensures r.Ok? && Visited(f.decl, h) ==> RunEnds(r.value.2, FieldPath(path, f.decl.partName))
  {
    var d := f.decl;
    if !Visited(d, h) then
      Ok((f, [], aligned))
    else
      var childPath := FieldPath(path, d.partName);
      var take := Drain(aligned, childPath);
      var slice := aligned[..take];
      assert aligned == slice + aligned[take..];
      assert forall q :: q in slice ==> HasPrefix(q.path, childPath) by {
        forall q | q in slice
          ensures HasPrefix(q.path, childPath)
        {
          var k :| 0 <= k < take && slice[k] == q;
          assert aligned[k] == q;
        }
      }
      var decoded :- h.decode(d, slice, childPath);
      var updated :- Assign(f, decoded, h);
      Ok((updated, slice, aligned[take..]))
  }

  /** `activate`: the fields' turns in order, each on the properties the
      previous turns left. */
  function Activate<V, N>(fields: seq<Field<V>>, props: seq<Property<N>>, path: Path, h: Hooks<V, N>): (r: Result<Activation<V, N>>)
    ensures r.Ok? ==> Consumed(r.value.steps) + r.value.rest == props
    ensures r.Ok? ==> StepsFit(fields, r.value.fields, r.value.steps, r.value.rest, path, h)
    decreases |fields|
  {
    if |fields| == 0 then Ok(Activation([], [], props))
    else
      var turn :- ActivateField(fields[0], props, path, h);
      var tail :- Activate(fields[1..], turn.2, path, h);
      ConsumedJoin(turn.1, tail.steps, tail.rest, turn.2, props);
      StepsFitCons(fields, turn.0, tail.fields, turn.1, tail.steps, tail.rest, path, h);
      Ok(Activation([turn.0] + tail.fields, [turn.1] + tail.steps, tail.rest))
  }

  /** A turn followed by further turns consumes its own properties first. */
  lemma ConsumedJoin<N>(st: Step<N>, steps: seq<Step<N>>, rest: seq<Property<N>>, mid: seq<Property<N>>, props: seq<Property<N>>)
    requires st.skipped + st.slice + mid == props
    requires Consumed(steps) + rest == mid
    ensures Consumed([st] + steps) + rest == props
  {
    assert ([st] + steps)[1..] == steps;
    assert Consumed([st] + steps) == st.skipped + st.slice + Consumed(steps);
  }

  /** The first field's turn fits and so do the others'. */
  lemma StepsFitCons<V, N>(fields: seq<Field<V>>, g: Field<V>, results: seq<Field<V>>, st: Step<N>, steps: seq<Step<N>>, rest: seq<Property<N>>, path: Path, h: Hooks<V, N>)
    requires |fields| > 0 && StepFits(fields[0], g, st, Consumed(steps) + rest, path, h)
    requires StepsFit(fields[1..], results, steps, rest, path, h)
    ensures StepsFit(fields, [g] + results, [st] + steps, rest, path, h)
  {
    assert ([g] + results)[1..] == results;
    assert ([st] + steps)[1..] == steps;
  }

  /** Decoding changes field values only: the j-th result is the j-th field. */
  lemma {:induction false} StepsKeepDeclarations<V, N>(fields: seq<Field<V>>, results: seq<Field<V>>, steps: seq<Step<N>>, rest: seq<Property<N>>, path: Path, h: Hooks<V, N>)
    requires StepsFit(fields, results, steps, rest, path, h)
    ensures forall j :: 0 <= j < |fields| ==> results[j].decl == fields[j].decl
    decreases |fields|
  {
    if |fields| > 0 {
      StepsKeepDeclarations(fields[1..], results[1..], steps[1..], rest, path, h);
      forall j | 0 < j < |fields|
        ensures results[j].decl == fields[j].decl
      {
        assert results[1..][j - 1] == results[j] && fields[1..][j - 1] == fields[j];
      }
    }
  }

  /** `createInstance` of `ObjectFieldTranslator`: the no-arg constructor's
      instance, or an `IllegalArgumentException` when there is none or it fails. */
  function CreateInstance<T>(constructed: Option<T>): (r: Result<T>)
    ensures r.Ok? <==> constructed.Some?
    ensures r.Ok? ==> r.value == constructed.value
    ensures r.Throws? ==> r.error == IllegalArgument
  {
    match constructed
    case None => Throws(IllegalArgument)
    case Some(instance) => Ok(instance)
  }

  /** `propertiesToTypesafe`: create the instance, then populate its fields in
      name order. `constructed` is what the no-arg constructor of the erased
      type yields. */
  function Decode<V(!new), N(!new)>(props: seq<Property<N>>, path: Path, constructed: Option<seq<Field<V>>>, h: Hooks<V, N>): (r: Result<seq<Field<V>>>)
    ensures constructed.None? ==> r == Throws(IllegalArgument)
    ensures r.Ok? ==> |r.value| == |constructed.value|
    ensures r.Ok? ==> forall j :: 0 <= j < |r.value| ==> r.value[j].decl == SortedFields(constructed.value)[j].decl
    ensures r.Ok? ==> exists steps: seq<Step<N>>, rest: seq<Property<N>> ::
      && Consumed(steps) + rest == props
      && StepsFit(SortedFields(constructed.value), r.value, steps, rest, path, h)
  {
    var instance :- CreateInstance(constructed);
    var sorted := SortedFields(instance);
    var act :- Activate(sorted, props, path, h);
    StepsKeepDeclarations(sorted, act.fields, act.steps, act.rest, path, h);
    assert Consumed(act.steps) + act.rest == props;
    Ok(act.fields)
  }
}

=== FILE: object_fields_roundtrip.dfy ===
/** Decoding what the field walk encoded gives the fields back: the paths the
    encoder writes are exactly what the decoder's alignment and drain loops
    expect. */
module ObjectFieldRoundTrip {
  import opened Outcomes
  import Strings
  import opened Paths
  import PathProperties
  import FieldOrder
  import opened ObjectFields

  /** A name followed, in `t`, by a separator or by the end of `t`. */
  predicate NameAtStart(t: string, n: string) {
    n <= t && (|t| == |n| || IsSeparator(t[|n|]))
  }

  /** At most one separator-free name starts a string that way. */
  lemma NameAtStartUnique(t: string, n1: string, n2: string)
    requires NameAtStart(t, n1) && NameAtStart(t, n2)
    requires NoSeparators(n1) && NoSeparators(n2)
    ensures n1 == n2
  {
    if |n1| == |n2| {
      assert n1 == t[..|n1|] == n2;
    }
  }

  /** The text of `q` below the base, when `q` lies below one of the base's
      field paths. */
  lemma BelowFieldPath(q: Path, base: Path, name: string)
    requires |name| > 0 && HasPrefix(q, FieldPath(base, name))
    ensures var pre := if base.value == "" then "" else base.value + [FieldSep];
      pre <= q.value && NameAtStart(q.value[|pre|..], name)
  {
    PathProperties.FieldStepExtends(base, name);
    var pre := if base.value == "" then "" else base.value + [FieldSep];
    assert FieldPath(base, name).value == pre + name;
    var t := q.value[|pre|..];
    assert q.value[..|pre| + |name|] == pre + name;
    assert t[..|name|] == name;
  }

  /** Distinct field names give child paths with no property below both. */
  lemma DistinctChildPaths(q: Path, base: Path, n1: string, n2: string)
    requires |n1| > 0 && NoSeparators(n1) && |n2| > 0 && NoSeparators(n2)
    requires HasPrefix(q, FieldPath(base, n1)) && HasPrefix(q, FieldPath(base, n2))
    ensures n1 == n2
  {
    BelowFieldPath(q, base, n1);
    BelowFieldPath(q, base, n2);
    var pre := if base.value == "" then "" else base.value + [FieldSep];
    NameAtStartUnique(q.value[|pre|..], n1, n2);
  }

  /** A property below a field's child path is aligned by that field's name. */
  lemma PeekChild<N>(q: Property<N>, base: Path, name: string)
    requires |name| > 0 && NoSeparators(name)
    requires HasPrefix(q.path, FieldPath(base, name))
    ensures PeekFieldName(q, base) == Ok(name)
  {
    PathProperties.PrefixIffSeparatorBoundary(q.path, FieldPath(base, name));
    var rest :| q.path.value == FieldPath(base, name).value + rest && (rest == "" || IsSeparator(rest[0]));
    PathProperties.FirstPartAfterFieldPrefix(base, name, rest);
    assert q.path == Path(FieldPath(base, name).value + rest);
  }

  /** The field lists the round trip is stated for: names sorted strictly,
      non-empty, free of separators, and written into paths unchanged. */
  ghost predicate Regular<V>(fields: seq<Field<V>>) {
    && FieldOrder.StrictlySortedBy(fields, FieldName)
    && forall j :: 0 <= j < |fields| ==>
         && fields[j].decl.partName == fields[j].decl.name
         && |fields[j].decl.name| > 0
         && NoSeparators(fields[j].decl.name)
  }

  /** Child translators that round-trip every value, decode no properties as
      null, and write below their path; no null markers; every stored value
      fits its field's declared and generic types and can be set. */
  ghost predicate Faithful<V(!new), N>(fields: seq<Field<V>>, h: Hooks<V, N>) {
    && ChildrenStayUnder(h)
    && !h.nullStored
    && (forall d, v, p, b :: h.encode(d, v, p, b).Ok? ==> h.decode(d, h.encode(d, v, p, b).value, p) == Ok(Some(v)))
    && (forall d, p :: h.decode(d, [], p) == Ok(None))
    && (forall f, v :: f in fields && f.value == Some(v) ==>
          h.fitsDeclared(f.decl, v) && h.fits(f.decl, v) && h.settable(f.decl, v))
  }

  lemma FaithfulDecodes<V(!new), N>(fields: seq<Field<V>>, h: Hooks<V, N>, d: Decl, v: V, p: Path, b: bool)
    requires Faithful(fields, h) && h.encode(d, v, p, b).Ok?
    ensures h.decode(d, h.encode(d, v, p, b).value, p) == Ok(Some(v))
  {
  }

  /** What decoding restores: a visited field that held a value gets it back,
      every other field keeps the value of the fresh instance. */
  function Restored<V, N>(f: Field<V>, blankField: Field<V>, h: Hooks<V, N>): Field<V> {
    if Visited(f.decl, h) && f.value.Some? then f else blankField
  }

  lemma RegularTail<V>(fields: seq<Field<V>>)
    requires Regular(fields) && |fields| > 0
    ensures Regular(fields[1..])
  {
  }

  /** The first encoded property belongs to a field at or after the first. */
  lemma AlignSkipsNothing<V(!new), N>(fields: seq<Field<V>>, props: seq<Property<N>>, path: Path, indexed: bool, h: Hooks<V, N>)
    requires Regular(fields) && |fields| > 0
    requires ChildrenStayUnder(h) && !h.nullStored
    requires EncodeFields(fields, path, indexed, h) == Ok(props)
    ensures Align(props, path, fields[0].decl.name) == Ok(0)
  {
    if |props| > 0 {
      var q := props[0];
      assert q in props;
      var g :| g in fields && FromField(q, g, path, indexed, h);
      var k :| 0 <= k < |fields| && fields[k] == g;
      PeekChild(q, path, g.decl.name);
      if k > 0 {
        Strings.CompareAntisymmetric(fields[0].decl.name, g.decl.name);
      } else {
        Strings.CompareZeroIffEqual(g.decl.name, g.decl.name);
      }
    }
  }

  /** A field's own properties all lie below its child path. */
  lemma EncodedUnderChild<V(!new), N>(f: Field<V>, path: Path, indexed: bool, h: Hooks<V, N>, head: seq<Property<N>>)
    requires ChildrenStayUnder(h) && !h.nullStored
    requires f.decl.partName == f.decl.name
    requires EncodeField(f, path, indexed, h) == Ok(head)
    ensures forall k :: 0 <= k < |head| ==> HasPrefix(head[k].path, FieldPath(path, f.decl.name))
  {
    forall k | 0 <= k < |head|
      ensures HasPrefix(head[k].path, FieldPath(path, f.decl.name))
    {
      assert head[k] in head;
    }
  }

  /** The drain loop takes exactly the first field's properties. */
  lemma DrainTakesHead<V(!new), N>(fields: seq<Field<V>>, head: seq<Property<N>>, tail: seq<Property<N>>, path: Path, indexed: bool, h: Hooks<V, N>)
    requires Regular(fields) && |fields| > 0
    requires ChildrenStayUnder(h) && !h.nullStored
    requires EncodeField(fields[0], path, indexed, h) == Ok(head)
    requires EncodeFields(fields[1..], path, indexed, h) == Ok(tail)
    ensures Drain(head + tail, FieldPath(path, fields[0].decl.name)) == |head|
  {
    var props := head + tail;
    var d := fields[0].decl;
    var r := Drain(props, FieldPath(path, d.name));
    if r < |head| {
      EncodedUnderChild(fields[0], path, indexed, h, head);
      assert false;
    } else if r > |head| {
      assert props[|head|] == tail[0];
      TailNotUnderHead(fields, tail, path, indexed, h);
    }
  }

  /** The properties of later fields do not lie below the first field's
      child path. */
  lemma TailNotUnderHead<V(!new), N>(fields: seq<Field<V>>, tail: seq<Property<N>>, path: Path, indexed: bool, h: Hooks<V, N>)
    requires Regular(fields) && |fields| > 0
    requires ChildrenStayUnder(h) && !h.nullStored
    requires EncodeFields(fields[1..], path, indexed, h) == Ok(tail)
    ensures |tail| > 0 ==> !HasPrefix(tail[0].path, FieldPath(path, fields[0].decl.name))
  {
    if |tail| > 0 && HasPrefix(tail[0].path, FieldPath(path, fields[0].decl.name)) {
      var q := tail[0];
      assert q in tail;
      var g :| g in fields[1..] && FromField(q, g, path, indexed, h);
      var k :| 0 <= k < |fields[1..]| && fields[1..][k] == g;
      var a, b := fields[0].decl, fields[k + 1].decl;
      assert g.decl == b;
      assert |a.name| > 0 && NoSeparators(a.name) && a.partName == a.name;
      assert |b.name| > 0 && NoSeparators(b.name) && b.partName == b.name;
      assert Strings.Compare(a.name, b.name) < 0;
      DistinctChildPaths(q.path, path, a.name, b.name);
      Strings.CompareZeroIffEqual(a.name, b.name);
      assert false;
    }
  }

  /** A turn that skips nothing: an unvisited field takes no properties, a
      visited one decodes the drained slice. */
  lemma ActivateAligned<V, N>(f: Field<V>, props: seq<Property<N>>, path: Path, h: Hooks<V, N>, take: nat)
    requires Align(props, path, f.decl.name) == Ok(0)
    requires take <= |props|
    requires Visited(f.decl, h) ==> Drain(props, FieldPath(path, f.decl.partName)) == take
    ensures !Visited(f.decl, h) ==> ActivateField(f, props, path, h) == Ok((f, Step([], []), props))
    ensures var decoded := h.decode(f.decl, props[..take], FieldPath(path, f.decl.partName));
      Visited(f.decl, h) && decoded.Ok? && Assign(f, decoded.value, h).Ok? ==>
        ActivateField(f, props, path, h) == Ok((Assign(f, decoded.value, h).value, Step([], props[..take]), props[take..]))
  {
    assert props[0..] == props;
    assert props[..0] == [];
  }

  /** A visited field that held a value is decoded from exactly its own
      properties and gets that value back. */
  lemma SetFieldRestored<V(!new), N>(fields: seq<Field<V>>, blank: Field<V>, path: Path, indexed: bool, h: Hooks<V, N>)
    requires Regular(fields) && |fields| > 0
    requires blank.decl == fields[0].decl
    requires Faithful(fields, h)
    requires Visited(fields[0].decl, h) && fields[0].value.Some?
    requires EncodeFields(fields, path, indexed, h).Ok?
    ensures var props := EncodeFields(fields, path, indexed, h).value;
      && EncodeFields(fields[1..], path, indexed, h).Ok?
      && ActivateField(blank, props, path, h) == Ok((fields[0], Step([], EncodeField(fields[0], path, indexed, h).value), EncodeFields(fields[1..], path, indexed, h).value))
  {
    var f := fields[0];
    var d := f.decl;
    var v := f.value.value;
    var props := EncodeFields(fields, path, indexed, h).value;
    var head := EncodeField(f, path, indexed, h).value;
    var tail := EncodeFields(fields[1..], path, indexed, h).value;
    assert props == head + tail;
    var childPath := FieldPath(path, d.partName);
    assert f in fields;
    assert h.fitsDeclared(d, v) && h.fits(d, v) && h.settable(d, v);
    assert h.encode(d, v, childPath, h.indexed(d)) == Ok(head);
    FaithfulDecodes(fields, h, d, v, childPath, h.indexed(d));
    assert Assign(blank, Some(v), h) == Ok(f);
    AlignSkipsNothing(fields, props, path, indexed, h);
    DrainTakesHead(fields, head, tail, path, indexed, h);
    assert props[..|head|] == head && props[|head|..] == tail;
    ActivateAligned(blank, props, path, h, |head|);
  }

  /** A visited field left null, or one the walk skips, keeps the fresh
      instance's value and takes no properties. */
  lemma OtherFieldKept<V(!new), N>(fields: seq<Field<V>>, blank: Field<V>, path: Path, indexed: bool, h: Hooks<V, N>)
    requires Regular(fields) && |fields| > 0
    requires blank.decl == fields[0].decl
    requires Faithful(fields, h)
    requires !(Visited(fields[0].decl, h) && fields[0].value.Some?)
    requires EncodeFields(fields, path, indexed, h).Ok?
    ensures var props := EncodeFields(fields, path, indexed, h).value;
      && EncodeFields(fields[1..], path, indexed, h).Ok?
      && ActivateField(blank, props, path, h).Ok?
      && ActivateField(blank, props, path, h).value.0 == blank
      && ActivateField(blank, props, path, h).value.2 == EncodeFields(fields[1..], path, indexed, h).value
  {
    var f := fields[0];
    var props := EncodeFields(fields, path, indexed, h).value;
    var head := EncodeField(f, path, indexed, h).value;
    var tail := EncodeFields(fields[1..], path, indexed, h).value;
    assert head == [];
    assert props == tail;
    AlignSkipsNothing(fields, props, path, indexed, h);
    DrainTakesHead(fields, head, tail, path, indexed, h);
    ActivateAligned(blank, props, path, h, 0);
    assert props[..0] == [] && props[0..] == props;
  }

  /** Decoding the encoded fields of an instance into a fresh instance of the
      same class restores every visited field that held a value, and leaves
      the others as the fresh instance has them. */
  lemma {:induction false} DecodeEncodeRoundTrip<V(!new), N>(fields: seq<Field<V>>, blank: seq<Field<V>>, path: Path, indexed: bool, h: Hooks<V, N>)
    requires Regular(fields)
    requires |blank| == |fields| && forall j :: 0 <= j < |fields| ==> blank[j].decl == fields[j].decl
    requires Faithful(fields, h)
    requires EncodeFields(fields, path, indexed, h).Ok?
    ensures var act := Activate(blank, EncodeFields(fields, path, indexed, h).value, path, h);
      && act.Ok?
      && |act.value.fields| == |fields|
      && forall j :: 0 <= j < |fields| ==> act.value.fields[j] == Restored(fields[j], blank[j], h)
    decreases |fields|
  {
    var props := EncodeFields(fields, path, indexed, h).value;
    if |fields| > 0 {
      var restProps := FirstTurn(fields, blank, path, indexed, h);
      var turn := ActivateField(blank[0], props, path, h).value;
      RegularTail(fields);
      FaithfulTail(fields, h);
      DecodeEncodeRoundTrip(fields[1..], blank[1..], path, indexed, h);
      ActivateCons(blank, props, path, h);
      RestoredCons(fields, blank, turn.0, Activate(blank[1..], turn.2, path, h).value.fields, h);
    }
  }

  /** The first field restored, followed by the other fields restored. */
  lemma RestoredCons<V, N>(fields: seq<Field<V>>, blank: seq<Field<V>>, head: Field<V>, tail: seq<Field<V>>, h: Hooks<V, N>)
    requires |fields| > 0 && |blank| == |fields| && |tail| == |fields| - 1
    requires head == Restored(fields[0], blank[0], h)
    requires forall j :: 0 <= j < |fields[1..]| ==> tail[j] == Restored(fields[1..][j], blank[1..][j], h)
    ensures forall j :: 0 <= j < |fields| ==> ([head] + tail)[j] == Restored(fields[j], blank[j], h)
  {
    forall j | 0 <= j < |fields|
      ensures ([head] + tail)[j] == Restored(fields[j], blank[j], h)
    {
      if j > 0 {
        assert ([head] + tail)[j] == tail[j - 1];
        assert fields[1..][j - 1] == fields[j] && blank[1..][j - 1] == blank[j];
      }
    }
  }

  /** The first field's turn on the encoded stream restores it and leaves
      the other fields' properties. */
  lemma FirstTurn<V(!new), N>(fields: seq<Field<V>>, blank: seq<Field<V>>, path: Path, indexed: bool, h: Hooks<V, N>) returns (restProps: seq<Property<N>>)
    requires Regular(fields) && |fields| > 0
    requires |blank| == |fields| && blank[0].decl == fields[0].decl
    requires Faithful(fields, h)
    requires EncodeFields(fields, path, indexed, h).Ok?
    ensures EncodeFields(fields[1..], path, indexed, h) == Ok(restProps)
    ensures var turn := ActivateField(blank[0], EncodeFields(fields, path, indexed, h).value, path, h);
      turn.Ok? && turn.value.0 == Restored(fields[0], blank[0], h) && turn.value.2 == restProps
  {
    if Visited(fields[0].decl, h) && fields[0].value.Some? {
      SetFieldRestored(fields, blank[0], path, indexed, h);
    } else {
      OtherFieldKept(fields, blank[0], path, indexed, h);
    }
    restProps := EncodeFields(fields[1..], path, indexed, h).value;
  }

  lemma FaithfulTail<V(!new), N>(fields: seq<Field<V>>, h: Hooks<V, N>)
    requires Faithful(fields, h) && |fields| > 0
    ensures Faithful(fields[1..], h)
  {
    assert forall f :: f in fields[1..] ==> f in fields;
  }

  /** The decode loop's first turn followed by the rest of the loop. */
  lemma ActivateCons<V, N>(blank: seq<Field<V>>, props: seq<Property<N>>, path: Path, h: Hooks<V, N>)
    requires |blank| > 0
    ensures var turn := ActivateField(blank[0], props, path, h);
      turn.Ok? && Activate(blank[1..], turn.value.2, path, h).Ok? ==>
        && Activate(blank, props, path, h).Ok?
        && Activate(blank, props, path, h).value.fields == [turn.value.0] + Activate(blank[1..], turn.value.2, path, h).value.fields
  {
  }

  /** The round trip through the public pair: what `typesafeToProperties`
      writes for an instance, `propertiesToTypesafe` reads back into a fresh
      instance of the same class, restoring every visited field that held a
      value. */
  lemma EncodeThenDecode<V(!new), N(!new)>(instance: seq<Field<V>>, blank: seq<Field<V>>, path: Path, indexed: bool, h: Hooks<V, N>)
    requires Regular(SortedFields(instance))
    requires |blank| == |instance|
    requires forall j :: 0 <= j < |instance| ==> SortedFields(blank)[j].decl == SortedFields(instance)[j].decl
    requires Faithful(SortedFields(instance), h)
    requires Encode(instance, path, indexed, h).Ok?
    ensures var r := Decode(Encode(instance, path, indexed, h).value, path, Some(blank), h);
      && r.Ok?
      && |r.value| == |instance|
      && forall j :: 0 <= j < |instance| ==> r.value[j] == Restored(SortedFields(instance)[j], SortedFields(blank)[j], h)
  {
    var fields := SortedFields(instance);
    assert |fields| == |instance| by {
      assert |multiset(fields)| == |multiset(instance)|;
    }
    assert |SortedFields(blank)| == |blank| by {
      assert |multiset(SortedFields(blank))| == |multiset(blank)|;
    }
    DecodeEncodeRoundTrip(fields, SortedFields(blank), path, indexed, h);
  }

    /** As written, `firstPartAfterPrefix` finds the prefix's part count with
      `size()`, which restarts its scan after a separator and so counts `x.y`
      as one part. The part it then peeks inside `x.y.z` is `.y`, not `.z`,
      and `y` sorts before the field name `z`: the decoder would skip the
      property that holds field `z`. */
  lemma ShortRootSkipsGrandchild()
    ensures Size(Path("x.y")) == 1 && PartCount(Path("x.y")) == 2
    ensures FirstPartAfterPrefixAsWritten(Path("x.y.z"), Path("x.y")) == Some(Part(".y"))
    ensures Part(".y").GetName() == Ok("y") && Strings.Compare("y", "z") < 0
  {
    assert Size(Path("x.y")) == 1 by {
      assert Strings.FirstIndexOf("x.y", 2, Separators) == -1;
    }
    assert Strings.Occurrences("x.y", Separators) == 1 by {
      assert "x.y"[1..] == ".y" && ".y"[1..] == "y" && "y"[1..] == "";
      assert 'x' !in Separators && '.' in Separators && 'y' !in Separators;
      assert Strings.Occurrences("y", Separators) == 0;
      assert Strings.Occurrences(".y", Separators) == 1;
    }
    assert Strings.NthIndexOf("x.y.z", 1, 0, Separators) == 1 by {
      PathProperties.NthIndexOfAt("x.y.z", 1, 1, Separators);
    }
    assert Strings.FirstIndexOf("x.y.z", 2, Separators) == 3;
    assert "x.y.z"[1..3] == ".y";
    PathProperties.PartNames('.', "y");
    assert Strings.Compare("y", "z") < 0;
  }

  /** With the part count of the prefix, the part after `x.y` inside `x.y.z`
      is `.z`: the decoder peeks the name `z` and stops at the property. */
  lemma CountedPrefixPeeksGrandchild<N>(value: Option<N>, indexed: bool)
    ensures PeekFieldName(Property(Path("x.y.z"), value, indexed), Path("x.y")) == Ok("z")
    ensures Align([Property(Path("x.y.z"), value, indexed)], Path("x.y"), "z") == Ok(0)
  {
    assert FieldPath(Path("x.y"), "z").value + "" == "x.y.z";
    PathProperties.FirstPartAfterFieldPrefix(Path("x.y"), "z", "");
  }
}

=== FILE: outcomes.dfy ===
/** Java's unchecked exceptions, as far as the modelled code throws them, and a
    failure-compatible result type standing for "returns a value or throws". */
module Outcomes {

  /** The exception classes the modelled code raises, explicitly or through the
      Java runtime (a `charAt(0)` on an empty string, a method call on null). */
  datatype Exception =
    | IllegalArgument
    | IllegalState
    | UnsupportedOperation
    | NullPointer
    | IndexOutOfBounds

  /** `Ok(v)` is a normal return of `v`; `Throws(e)` is an abrupt exit with `e`. */
  datatype Result<+T> = Ok(value: T) | Throws(error: Exception) {

    predicate IsFailure() {
      Throws?
    }

    function PropagateFailure<U>(): Result<U>
      requires Throws?
    {
      Throws(error)
    }

    function Extract(): T
      requires Ok?
    {
      value
    }
  }

  /** Java's `Object` reference that may be null. */
  datatype Option<+T> = None | Some(value: T)
}

=== FILE: parents_command.dfy ===
/** `StandardCommonParentsCommand`: the fetch size used to load the parents
    of the entities a find returns, and the asynchronous variant that does
    not exist yet. */
module ParentsCommand {
  import opened Outcomes

  /** `FetchOptions.DEFAULT_CHUNK_SIZE` of the App Engine datastore API. */
  const DefaultChunkSize := 20

  /** The part of the root command's `FetchOptions` that is read: the chunk
      and prefetch sizes, each an `Integer` that may be null. */
  datatype FetchOptions = FetchOptions(chunkSize: Option<int>, prefetchSize: Option<int>)

  /** The smallest and largest values `Integer.valueOf` hands out from its
      cache, so that two separately boxed equal values are one object. */
  const BoxCacheLow := -128
  const BoxCacheHigh := 127

  /** Whether two separately boxed `Integer`s are the same reference: both
      null, or equal and inside the box cache. */
  predicate SameReference(a: Option<int>, b: Option<int>) {
    match (a, b)
    case (None, None) => true
    case (Some(x), Some(y)) => x == y && BoxCacheLow <= x <= BoxCacheHigh
    case _ => false
  }

  /** `getFetchSize` as written: the two sizes are compared with `!=`, which
      on `Integer` compares references, and the chunk size is then unboxed. */
  function GetFetchSizeAsWritten(options: Option<FetchOptions>): (r: Result<int>)
    ensures options.None? ==> r == Ok(DefaultChunkSize)
    ensures options.Some? && !SameReference(options.value.chunkSize, options.value.prefetchSize) ==>
      r == Throws(IllegalArgument)
  {
    match options
    case None => Ok(DefaultChunkSize)
    case Some(o) =>
      if !SameReference(o.chunkSize, o.prefetchSize) then Throws(IllegalArgument)
      else if o.chunkSize.None? then Throws(NullPointer)
      else Ok(o.chunkSize.value)
  }

  /** Equal sizes of 500 are refused as if they differed. */
  lemma AsWrittenRefusesEqualLargeSizes()
    ensures GetFetchSizeAsWritten(Some(FetchOptions(Some(500), Some(500)))) == Throws(IllegalArgument)
    ensures GetFetchSize(Some(FetchOptions(Some(500), Some(500)))) == Ok(500)
  {
  }

  /** Options that set neither size end in a `NullPointerException`. */
  lemma AsWrittenUnboxesNull()
    ensures GetFetchSizeAsWritten(Some(FetchOptions(None, None))) == Throws(NullPointer)
    ensures GetFetchSize(Some(FetchOptions(None, None))) == Ok(DefaultChunkSize)
  {
  }

  /** `getFetchSize` as intended: the default without options; sizes that
      differ in value are refused; otherwise the common size, or the default
      when neither is set. */
  function GetFetchSize(options: Option<FetchOptions>): (r: Result<int>)
    ensures options.None? ==> r == Ok(DefaultChunkSize)
    ensures options.Some? && options.value.chunkSize != options.value.prefetchSize ==> r == Throws(IllegalArgument)
    ensures options.Some? && options.value.chunkSize == options.value.prefetchSize ==>
      r == Ok(if options.value.chunkSize.Some? then options.value.chunkSize.value else DefaultChunkSize)
    ensures r.Throws? ==> r.error == IllegalArgument
  {
    match options
    case None => Ok(DefaultChunkSize)
    case Some(o) =>
      if o.chunkSize != o.prefetchSize then Throws(IllegalArgument)
      else Ok(if o.chunkSize.Some? then o.chunkSize.value else DefaultChunkSize)
  }

  /** The two agree except on equal sizes outside the box cache and on
      options that set neither size. */
  lemma {:induction false} AsWrittenAgreesInsideCache(options: Option<FetchOptions>)
    requires options.Some? ==> options.value.chunkSize.Some? || options.value.prefetchSize.Some?
    requires options.Some? && options.value.chunkSize.Some? ==> BoxCacheLow <= options.value.chunkSize.value <= BoxCacheHigh
    ensures GetFetchSizeAsWritten(options) == GetFetchSize(options)
  {
    match options
    case None =>
    case Some(o) =>
      if o.chunkSize == o.prefetchSize {
        assert SameReference(o.chunkSize, o.prefetchSize);
      }
  }

  /** `returnParentsLater`: always refused, whatever the command. */
  function ReturnParentsLater<C>(command: C): (r: Result<()>)
    ensures r.Throws? && r.error == UnsupportedOperation
  {
    Throws(UnsupportedOperation)
  }
}

=== FILE: path_properties.dfy ===
/** What the path algebra promises: the prefix relation, the parts a builder
    step adds, part names, part counting and the string order. */
module PathProperties {
  import opened Outcomes
  import Strings
  import opened Paths

  /** Every path has the empty path and itself as prefixes. */
  lemma PrefixOfEmptyAndSelf(p: Path)
    ensures HasPrefix(p, EmptyPath)
    ensures HasPrefix(p, p)
  {
  }

  /** `hasPrefix` holds exactly when the text continues the prefix's text with
      nothing, or with a separator. */
  lemma PrefixIffSeparatorBoundary(p: Path, q: Path)
    ensures HasPrefix(p, q) <==>
      (q.value == "" || exists rest :: p.value == q.value + rest && (rest == "" || IsSeparator(rest[0])))
  {
    if q.value != "" && HasPrefix(p, q) {
      var rest := p.value[|q.value|..];
      assert p.value == q.value + rest;
    }
  }

  /** A string prefix that ends inside a part name is not a path prefix: `foo`
      is not a prefix of `foobar`. */
  lemma PrefixNotInsideName(q: Path, rest: string)
    requires q.value != "" && |rest| > 0 && !IsSeparator(rest[0])
    ensures !HasPrefix(Path(q.value + rest), q)
  {
    assert (q.value + rest)[|q.value|] == rest[0];
  }

  /** `foo` is not a path prefix of `foobar`, but is one of `foo.bar`. */
  lemma FooIsNotPrefixOfFoobar()
    ensures !HasPrefix(Path("foobar"), Path("foo"))
    ensures HasPrefix(Path("foo.bar"), Path("foo"))
  {
    PrefixNotInsideName(Path("foo"), "bar");
    assert "foo.bar" == "foo" + ".bar";
  }

  lemma PrefixTransitive(p: Path, q: Path, r: Path)
    requires HasPrefix(p, q) && HasPrefix(q, r)
    ensures HasPrefix(p, r)
  {
    if r.value != "" {
      assert q.value != "";
      assert r.value <= p.value;
      if |p.value| != |r.value| {
        if |q.value| == |r.value| {
          assert q.value == r.value;
        } else {
          assert p.value[|r.value|] == q.value[|r.value|];
        }
      }
    }
  }

  lemma PrefixAntisymmetric(p: Path, q: Path)
    requires HasPrefix(p, q) && HasPrefix(q, p)
    ensures p == q
  {
  }

  /** A field step on a non-empty base writes `.` and the name; on the empty
      path it writes the name alone. The base is a prefix of the result. */
  lemma FieldStepExtends(base: Path, name: string)
    ensures FieldPath(base, name).value ==
      (if base.value == "" then name else base.value + [FieldSep] + name)
    ensures HasPrefix(FieldPath(base, name), base)
  {
    if base.value != "" {
      var r := FieldPath(base, name).value;
      assert r[|base.value|] == FieldSep;
    }
  }

  /** A type step writes `$` and the name, even onto the empty path. The base is
      a prefix of the result. */
  lemma MetaStepExtends(base: Path, name: string)
    ensures MetaPath(base, name).value == base.value + [TypeSep] + name
    ensures HasPrefix(MetaPath(base, name), base)
  {
    var r := MetaPath(base, name).value;
    assert r[|base.value|] == TypeSep;
  }

  /** `isType()` answers exactly what `isField()` answers, for every part. */
  lemma IsTypeIsField(part: Part)
    ensures part.IsType() == part.IsField()
  {
  }

  /** A part that starts with a separator is named by the rest of its text; a
      root part by all of it. */
  lemma PartNames(c: char, name: string)
    ensures IsSeparator(c) ==> Part([c] + name).GetName() == Ok(name)
    ensures IsSeparator(c) ==> Part([c] + name).IsRoot() == Ok(false)
    ensures !IsSeparator(c) ==> Part([c] + name).GetName() == Ok([c] + name)
    ensures Part([c] + name).IsField() == Ok(c == FieldSep)
  {
    assert ([c] + name)[1..] == name;
  }

  /** The empty part has no name: `charAt(0)` throws. */
  lemma EmptyPartHasNoName()
    ensures Part("").GetName() == Throws(IndexOutOfBounds)
  {
  }

  /** `firstPart()` of a root name followed by further parts is the root name. */
  lemma FirstPartIsRoot(root: string, rest: string)
    requires |root| > 0 && NoSeparators(root)
    requires rest == "" || IsSeparator(rest[0])
    ensures FirstPart(Path(root + rest)) == Part(root)
    ensures FirstPart(Path(root + rest)).GetName() == Ok(root)
  {
    var s := root + rest;
    var i := Strings.FirstIndexOf(s, 0, Separators);
    if rest != "" {
      assert s[|root|] == rest[0];
      assert i == |root|;
      assert s[..i] == root;
    } else {
      assert s == root;
    }
  }

  /** A path that starts with a separator is its own first part. */
  lemma FirstPartOfLeadingSeparator(p: Path)
    requires |p.value| > 0 && IsSeparator(p.value[0])
    ensures FirstPart(p) == Part(p.value)
  {
  }

  /** `tail()` of a root name and one field step is the field name. */
  lemma TailDropsRoot(root: string, name: string)
    requires |root| > 0 && FieldSep !in root
    ensures Tail(FieldPath(Path(root), name)) == Path(name)
  {
    var s := root + [FieldSep] + name;
    assert FieldPath(Path(root), name).value == s;
    assert s[|root|] == FieldSep;
    assert forall j :: 0 <= j < |root| ==> s[j] == root[j];
    var i := Strings.FirstIndexOf(s, 0, {FieldSep});
    assert i == |root|;
    assert s[i + 1..] == name;
  }

  /** The loop of `size()` counts one part per separator after a position whose
      successor is not a separator. */
  lemma {:induction false} CountFromSeparators(s: string, i: nat)
    requires i < |s|
    requires i + 1 < |s| ==> !IsSeparator(s[i + 1])
    requires forall j :: 0 <= j < |s| && j + 1 < |s| && IsSeparator(s[j]) ==> !IsSeparator(s[j + 1])
    ensures CountFrom(s, i) == 1 + Strings.Occurrences(s[i + 1..], Separators)
    decreases |s| - i
  {
    var next := Strings.FirstIndexOf(s, i + 2, Separators);
    if next > 0 {
      CountFromSeparators(s, next);
      assert forall j :: i + 1 <= j < next ==> s[j] !in Separators;
      Strings.OccurrencesNone(s[i + 1..next], Separators);
      Strings.OccurrencesAcross(s, i + 1, next, |s|, Separators);
      assert s[i + 1..] == s[i + 1..|s|] && s[next + 1..] == s[next + 1..|s|];
    } else {
      assert forall j :: i + 1 <= j < |s| ==> s[j] !in Separators;
      Strings.OccurrencesNone(s[i + 1..], Separators);
    }
  }

  /** On a countable path, `size()` is one more than the number of separators:
      one root part and one part per separator. */
  lemma SizeCountsParts(p: Path)
    requires Countable(p) && p.value != ""
    ensures Size(p) == 1 + Strings.Occurrences(p.value, Separators)
  {
    var s := p.value;
    CountFromSeparators(s, 0);
    Strings.OccurrencesSplit(s, 0, 1, |s|, Separators);
    assert s[0..1] == [s[0]];
    assert s[1..] == s[1..|s|] && s == s[0..|s|];
  }

  /** On a countable prefix `size()` is the part count, so
      `firstPartAfterPrefix` as written peeks the same part as with the
      corrected count. */
  lemma AsWrittenPeekAgreesWhenCountable(p: Path, prefix: Path)
    requires Countable(prefix)
    ensures Size(prefix) == PartCount(prefix)
    ensures FirstPartAfterPrefixAsWritten(p, prefix) == FirstPartAfterPrefix(p, prefix)
  {
    if prefix.value != "" {
      SizeCountsParts(prefix);
    }
  }

  /** Without the countability condition `size()` miscounts: `a.b` has two
      parts, but the search restarting two characters on skips the separator. */
  lemma SizeUndercountsShortRoot()
    ensures Strings.Occurrences("a.b", Separators) == 1
    ensures Size(Path("a.b")) == 1
  {
    assert Strings.FirstIndexOf("a.b", 2, Separators) == -1;
    assert "a.b"[1..] == ".b" && ".b"[1..] == "b";
    Strings.OccurrencesNone("b", Separators);
    assert Strings.Occurrences(".b", Separators) == 1;
  }

  /** Only one index holds the `n`-th separator. */
  lemma NthIndexOfAt(s: string, n: nat, at: nat, chars: set<char>)
    requires n >= 1 && at < |s| && s[at] in chars
    requires Strings.Occurrences(s[..at], chars) == n - 1
    ensures Strings.NthIndexOf(s, n, 0, chars) == at
  {
    var r := Strings.NthIndexOf(s, n, 0, chars);
    assert s[0..at] == s[..at];
    assert s[0..] == s[0..|s|];
    if r == -1 {
      Strings.OccurrencesGrowAt(s, 0, at, |s|, chars);
      assert false;
    } else if r < at {
      Strings.OccurrencesGrowAt(s, 0, r, at, chars);
      assert false;
    } else if r > at {
      Strings.OccurrencesGrowAt(s, 0, at, r, chars);
      assert false;
    }
  }

  /** A part runs from its start up to the next separator or the end. */
  lemma PartFromRun(s: string, begin: nat, stop: nat)
    requires begin < stop <= |s|
    requires forall j :: begin < j < stop ==> !IsSeparator(s[j])
    requires stop < |s| ==> IsSeparator(s[stop])
    ensures PartFrom(s, begin) == Part(s[begin..stop])
  {
    Strings.FirstIndexOfAfterRun(s, begin + 1, stop, Separators);
    if stop == |s| {
      assert s[begin..] == s[begin..stop];
    }
  }

  /** Below the root, the part after the base is the field name. */
  lemma FieldPartAfterRootBase(name: string, rest: string)
    requires |name| > 0 && NoSeparators(name)
    requires rest == "" || IsSeparator(rest[0])
    ensures GetPart(Path(name + rest), 0) == Some(Part(name))
  {
    var s := name + rest;
    assert forall j :: 0 <= j < |name| ==> s[j] == name[j];
    if rest != "" {
      assert s[|name|] == rest[0];
    }
    PartFromRun(s, 0, |name|);
    assert s[0..|name|] == name;
  }

  /** Below a non-empty base, the `n`-th separator, `n` being the base's part
      count, is the one the field step wrote. */
  lemma FieldStepSeparatorIndex(base: Path, t: string)
    requires base.value != ""
    ensures Strings.NthIndexOf(base.value + [FieldSep] + t, PartCount(base), 0, Separators) == |base.value|
  {
    var b := base.value;
    var s := b + [FieldSep] + t;
    assert s[..|b|] == b;
    assert s[|b|] == FieldSep;
    NthIndexOfAt(s, Strings.Occurrences(b, Separators) + 1, |b|, Separators);
  }

  /** Below a non-empty base, the part after the base is `.name`. */
  lemma FieldPartAfterBase(base: Path, name: string, rest: string)
    requires base.value != ""
    requires |name| > 0 && NoSeparators(name)
    requires rest == "" || IsSeparator(rest[0])
    ensures GetPart(Path(base.value + [FieldSep] + name + rest), PartCount(base)) == Some(Part([FieldSep] + name))
  {
    var b := base.value;
    assert b + [FieldSep] + (name + rest) == b + [FieldSep] + name + rest;
    FieldStepSeparatorIndex(base, name + rest);
    FieldStepPart(b, name, rest);
  }

  /** The part starting at the separator of a field step is `.name`. */
  lemma FieldStepPart(b: string, name: string, rest: string)
    requires |name| > 0 && NoSeparators(name)
    requires rest == "" || IsSeparator(rest[0])
    ensures PartFrom(b + [FieldSep] + name + rest, |b|) == Part([FieldSep] + name)
  {
    var s := b + [FieldSep] + name + rest;
    var e := |b| + 1 + |name|;
    assert forall j :: |b| < j < e ==> s[j] == name[j - |b| - 1];
    if rest != "" {
      assert s[e] == rest[0];
    }
    PartFromRun(s, |b|, e);
    assert s[|b|..e] == [FieldSep] + name;
  }

  /** The part that follows a base inside one of its field paths is the field
      step itself, and its name is the field name. This is what lets the
      decoder compare properties with field names. */
  lemma FirstPartAfterFieldPrefix(base: Path, name: string, rest: string)
    requires |name| > 0 && NoSeparators(name)
    requires rest == "" || IsSeparator(rest[0])
    ensures var p := Path(FieldPath(base, name).value + rest);
      && FirstPartAfterPrefix(p, base).Some?
      && FirstPartAfterPrefix(p, base).value.GetName() == Ok(name)
  {
    if base.value == "" {
      assert FieldPath(base, name).value == name;
      FieldPartAfterRootBase(name, rest);
      PartNames(name[0], name[1..]);
      assert [name[0]] + name[1..] == name;
    } else {
      FieldPartAfterBase(base, name, rest);
      PartNames(FieldSep, name);
    }
  }

  /** The same for `firstPartAfterPrefix` as written, whose count `size()`
      is right on a countable base. */
  lemma FirstPartAfterFieldPrefixAsWritten(base: Path, name: string, rest: string)
    requires Countable(base)
    requires |name| > 0 && NoSeparators(name)
    requires rest == "" || IsSeparator(rest[0])
    ensures var p := Path(FieldPath(base, name).value + rest);
      && FirstPartAfterPrefixAsWritten(p, base).Some?
      && FirstPartAfterPrefixAsWritten(p, base).value.GetName() == Ok(name)
  {
    var p := Path(FieldPath(base, name).value + rest);
    AsWrittenPeekAgreesWhenCountable(p, base);
    FirstPartAfterFieldPrefix(base, name, rest);
  }

  /** `compareTo` returns zero exactly when `equals` holds, and both agree
      with equality of paths. */
  lemma CompareToConsistentWithEquals(p: Path, q: Path)
    ensures CompareTo(p, q) == 0 <==> Equals(p, q)
    ensures Equals(p, q) <==> p == q
    ensures CompareTo(p, q) == -CompareTo(q, p)
  {
    Strings.CompareZeroIffEqual(p.value, q.value);
    Strings.CompareAntisymmetric(p.value, q.value);
  }

  /** The string order does not keep paths that share a prefix together: a
      character that sorts below `.` places `a-x` between `a` and `a.b`. */
  lemma SharedPrefixNotContiguous()
    ensures HasPrefix(Path("a"), Path("a")) && HasPrefix(Path("a.b"), Path("a"))
    ensures CompareTo(Path("a"), Path("a-x")) < 0 && CompareTo(Path("a-x"), Path("a.b")) < 0
    ensures !HasPrefix(Path("a-x"), Path("a"))
  {
    assert "a-x" == "a" + "-x";
    Strings.ComparePrefix("a", "-x");
    assert "a-x"[1..] == "-x" && "a.b"[1..] == ".b";
  }
}

=== FILE: paths.dfy ===
/** `com.vercer.engine.persist.Path`: the name of a location inside a flattened
    entity. A path is a string whose parts are separated by `.` (a field step)
    and `$` (a type step); the first part is the root property name. */
module Paths {
  import opened Outcomes
  import Strings

  const FieldSep: char := '.'
  const TypeSep: char := '$'
  const Separators: set<char> := {FieldSep, TypeSep}

  predicate IsSeparator(c: char) {
    c == FieldSep || c == TypeSep
  }

  predicate NoSeparators(s: string) {
    forall i :: 0 <= i < |s| ==> !IsSeparator(s[i])
  }

  datatype Path = Path(value: string)

  /** `Path.EMPTY_PATH`, the entity root. */
  const EmptyPath: Path := Path("")

  /** `Path.Builder`, seeded either with a root property name or with the text
      of a base path. */
  datatype Builder = Builder(text: string) {

    /** Appends a field step; no separator is written onto an empty builder. */
    function Field(name: string): Builder {
      if |text| > 0 then Builder(text + [FieldSep] + name) else Builder(text + name)
    }

    /** Appends a type step; the separator is written even onto an empty builder. */
    function Meta(name: string): Builder {
      Builder(text + [TypeSep] + name)
    }

    function Build(): Path {
      Path(text)
    }
  }

  /** `new Path.Builder(base).field(name).build()`, the child path of a field. */
  function FieldPath(base: Path, name: string): Path {
    Builder(base.value).Field(name).Build()
  }

  /** `new Path.Builder(base).meta(name).build()`. */
  function MetaPath(base: Path, name: string): Path {
    Builder(base.value).Meta(name).Build()
  }

  /** `Path.Part`: one part of a path, its separator (if any) included. */
  datatype Part = Part(text: string) {

    /** `text.charAt(0)`, which throws on an empty part. */
    function Head(): (r: Result<char>)
      ensures r.Ok? <==> |text| > 0
      ensures r.Ok? ==> r.value == text[0]
    {
      if |text| == 0 then Throws(IndexOutOfBounds) else Ok(text[0])
    }

    function IsField(): Result<bool> {
      var c :- Head();
      Ok(c == FieldSep)
    }

    /** Tests for the field separator, exactly like `IsField`. */
    function IsType(): Result<bool> {
      var c :- Head();
      Ok(c == FieldSep)
    }

    function IsRoot(): Result<bool> {
      var c :- Head();
      Ok(!IsSeparator(c))
    }

    /** The part's text without its leading separator. */
    function GetName(): (r: Result<string>)
      ensures r.Ok? <==> |text| > 0
      ensures r.Ok? && !IsSeparator(text[0]) ==> r.value == text
      ensures r.Ok? && IsSeparator(text[0]) ==> [text[0]] + r.value == text
    {
      var root :- IsRoot();
      if root then Ok(text) else Ok(text[1..])
    }
  }

  /** `part` is the text of `s` that starts at `begin` and runs up to the next
      separator after it, or to the end; it is empty only when `begin` is the
      end of `s`. */
  ghost predicate PartAt(s: string, begin: nat, part: Part) {
    var end := begin + |part.text|;
    && end <= |s|
    && part.text == s[begin..end]
    && (forall j :: begin < j < end ==> !IsSeparator(s[j]))
    && (end == |s| || IsSeparator(s[end]))
    && (begin < |s| ==> |part.text| > 0)
  }

  /** `getParts().get(index)`: the part that starts at the `index`-th separator
      (the root part for index 0), or null when there are not that many
      separators. */
  function GetPart(p: Path, index: nat): (r: Option<Part>)
    ensures index == 0 ==> r.Some? && PartAt(p.value, 0, r.value)
    ensures index > 0 ==> (r.Some? <==> Strings.Occurrences(p.value, Separators) >= index)
    ensures index > 0 && r.Some? ==> exists b ::
      && 0 <= b < |p.value| && IsSeparator(p.value[b])
      && Strings.Occurrences(p.value[..b], Separators) == index - 1
      && PartAt(p.value, b, r.value)
  {
    var s := p.value;
    var begin := if index == 0 then 0 else Strings.NthIndexOf(s, index, 0, Separators);
    if index > 0 then
      NthSeparator(s, index);
      if begin >= 0 then Some(PartFrom(s, begin)) else None
    else
      Some(PartFrom(s, 0))
  }

  /** The `n`-th separator from the start exists exactly when there are at
      least `n` separators, and has `n - 1` before it. */
  lemma NthSeparator(s: string, n: nat)
    requires n > 0
    ensures var b := Strings.NthIndexOf(s, n, 0, Separators);
      && (b >= 0 <==> Strings.Occurrences(s, Separators) >= n)
      && (b >= 0 ==> b < |s| && IsSeparator(s[b]) && Strings.Occurrences(s[..b], Separators) == n - 1)
  {
    var b := Strings.NthIndexOf(s, n, 0, Separators);
    assert s[0..] == s == s[0..|s|];
    if b >= 0 {
      assert s[0..b] == s[..b];
      Strings.OccurrencesGrowAt(s, 0, b, |s|, Separators);
    }
  }

  /** The part that starts at `begin` and runs up to the next separator. */
  function PartFrom(s: string, begin: nat): (r: Part)
    requires begin <= |s|
    ensures PartAt(s, begin, r)
  {
    var end := Strings.FirstIndexOf(s, begin + 1, Separators);
    if end > 0 then Part(s[begin..end]) else Part(s[begin..])
  }

  /** The do-while loop of `getParts().size()` from a given index on: every
      search restarts two characters after the previous separator. */
  function CountFrom(s: string, index: nat): nat
    decreases |s| - index
  {
    var next := Strings.FirstIndexOf(s, index + 2, Separators);
    if next > 0 then 1 + CountFrom(s, next) else 1
  }

  /** `getParts().size()`, as written. */
  function Size(p: Path): (r: nat)
    ensures r == 0 <==> p.value == ""
  {
    if |p.value| == 0 then 0 else CountFrom(p.value, 0)
  }

  /** The part count `size()` is meant to return: the number of parts `get`
      hands out, that is none for the empty path and otherwise the root part
      and one part per separator. */
  function PartCount(p: Path): (r: nat)
    ensures r == 0 <==> p.value == ""
    ensures forall i :: 0 <= i < r ==> GetPart(p, i).Some?
    ensures p.value != "" ==> GetPart(p, r).None?
  {
    if |p.value| == 0 then 0 else 1 + Strings.Occurrences(p.value, Separators)
  }

  /** The paths whose parts `Size` counts correctly: no two adjacent
      separators, and no separator at index 0 or 1 (a root name of one
      character followed by a separator is miscounted). */
  predicate Countable(p: Path) {
    var s := p.value;
    && (forall i :: 0 <= i < |s| && i + 1 < |s| && IsSeparator(s[i]) ==> !IsSeparator(s[i + 1]))
    && (|s| > 0 ==> !IsSeparator(s[0]))
    && (|s| > 1 ==> !IsSeparator(s[1]))
  }

  /** `firstPart()`: the text before the first separator, or the whole path
      when there is no separator or the path starts with one. */
  function FirstPart(p: Path): (r: Part)
    ensures r.text <= p.value
    ensures |r.text| == |p.value| || IsSeparator(p.value[|r.text|])
    ensures |p.value| > 0 && !IsSeparator(p.value[0]) ==> NoSeparators(r.text)
  {
    var index := Strings.FirstIndexOf(p.value, 0, Separators);
    if index > 0 then Part(p.value[..index]) else Part(p.value)
  }

  /** `tail()`: the text after the first field separator, or the whole path
      when there is none (type separators are not looked for). */
  function Tail(p: Path): (r: Path)
    ensures |r.value| <= |p.value| && r.value == p.value[|p.value| - |r.value|..]
    ensures FieldSep in p.value <==> |r.value| < |p.value|
  {
    var index := Strings.FirstIndexOf(p.value, 0, {FieldSep});
    Path(p.value[index + 1..])
  }

  /** `hasPrefix(q)`: the path's text starts with `q`'s and the match ends at a
      separator or at the end of the text; every path has the empty prefix. */
  predicate HasPrefix(p: Path, q: Path) {
    || q.value == ""
    || (q.value <= p.value && (|p.value| == |q.value| || IsSeparator(p.value[|q.value|])))
  }

  /** `firstPartAfterPrefix(prefix)`, with the prefix's parts counted as
      `get` indexes them; the source's `assert hasPrefix(prefix)` is not
      enabled at run time, so nothing is required here. */
  function FirstPartAfterPrefix(p: Path, prefix: Path): (r: Option<Part>)
    ensures prefix.value == "" ==> r.Some? && PartAt(p.value, 0, r.value)
    ensures prefix.value != "" ==>
      (r.Some? <==> Strings.Occurrences(p.value, Separators) > Strings.Occurrences(prefix.value, Separators))
  {
    GetPart(p, PartCount(prefix))
  }

  /** `firstPartAfterPrefix(prefix)` as written, counting the prefix's parts
      with `size()`. */
  function FirstPartAfterPrefixAsWritten(p: Path, prefix: Path): Option<Part> {
    GetPart(p, Size(prefix))
  }

  /** `equals`: equality of the underlying strings. */
  predicate Equals(p: Path, q: Path) {
    p.value == q.value
  }

  /** `compareTo`: the order of the underlying strings. */
  function CompareTo(p: Path, q: Path): int {
    Strings.Compare(p.value, q.value)
  }
}

=== FILE: selection.dfy ===
/** Which translator handles a field, as `TranslatorObjectDatastore` decides
    from the configuration, and which fields the field walk visits. */
module Selection {

  /** The configuration's answers about one field. */
  datatype Roles = Roles(
    entity: bool, parent: bool, child: bool, id: bool, embed: bool,
    polymorphic: bool, key: bool, store: bool, index: bool)

  /** The translators the datastore wires together in its constructor, as a
      tree of their compositions. `FieldWalk` is the configuration field
      translator, `ValueChain` the chain for single values and `Fallback`
      the subclass's fallback translator. */
  datatype Translator =
    | FieldWalk
    | ValueChain
    | Fallback
    | ParentRelation
    | ChildRelation
    | IndependentRelation
    | KeyField
    | IdField(values: Translator)
    | ListOf(element: Translator)
    | MapOf(entry: Translator)
    | PolymorphicOf(inner: Translator)
    | Chained(first: Translator, second: Translator)

  /** The `@Entity` relationship annotation's values. */
  datatype Relationship = Parent | Child | Independent

  const IdTranslator := IdField(ValueChain)
  const EmbedTranslator := ListOf(MapOf(FieldWalk))
  const PolymorphicTranslator := ListOf(MapOf(PolymorphicOf(Chained(ValueChain, FieldWalk))))
  const DefaultTranslator := ListOf(MapOf(Chained(ValueChain, Fallback)))

  /** `translator(Field)`: the first rule that applies, in the order entity
      (parent, then child, then independent), id, embed (polymorphic or
      plain), native key, default. */
  function Select(r: Roles): (t: Translator)
    ensures t == ParentRelation <==> r.entity && r.parent
    ensures t == ChildRelation <==> r.entity && !r.parent && r.child
    ensures t == IndependentRelation <==> r.entity && !r.parent && !r.child
    ensures t == IdTranslator <==> !r.entity && r.id
    ensures t == PolymorphicTranslator <==> !r.entity && !r.id && r.embed && r.polymorphic
    ensures t == EmbedTranslator <==> !r.entity && !r.id && r.embed && !r.polymorphic
    ensures t == KeyField <==> !r.entity && !r.id && !r.embed && r.key
    ensures t == DefaultTranslator <==> !r.entity && !r.id && !r.embed && !r.key
  {
    if r.entity then
      if r.parent then ParentRelation
      else if r.child then ChildRelation
      else IndependentRelation
    else if r.id then IdTranslator
    else if r.embed then
      if r.polymorphic then PolymorphicTranslator else EmbedTranslator
    else if r.key then KeyField
    else DefaultTranslator
  }

  /** The translator `t` hands values to `u`, directly or through wrappers. */
  predicate Uses(t: Translator, u: Translator) {
    t == u ||
    match t
    case IdField(values) => Uses(values, u)
    case ListOf(element) => Uses(element, u)
    case MapOf(entry) => Uses(entry, u)
    case PolymorphicOf(inner) => Uses(inner, u)
    case Chained(first, second) => Uses(first, u) || Uses(second, u)
    case _ => false
  }

  /** A field's value is walked field by field again exactly when it is
      embedded and is neither a related entity nor the id. */
  lemma NestedWalkIffEmbedded(r: Roles)
    ensures Uses(Select(r), FieldWalk) <==> !r.entity && !r.id && r.embed
  {
  }

  /** The value chain serves exactly the id, polymorphic embedded fields and
      the unconfigured ones. */
  lemma ValueChainUse(r: Roles)
    ensures Uses(Select(r), ValueChain) <==>
      !r.entity && (r.id || (r.embed && r.polymorphic) || (!r.embed && !r.key))
  {
  }

  /** Every translator but the relation, id and key translators accepts
      collections and maps of its values. */
  lemma CollectionsWrapped(r: Roles)
    ensures Select(r).ListOf? <==> !r.entity && !r.id && (r.embed || !r.key)
    ensures Select(r).ListOf? ==> Select(r).element.MapOf?
  {
  }

  /** The roles of a field annotated `@Entity(rel)`. */
  function Annotated(rel: Relationship, r: Roles): (a: Roles)
    ensures a.entity
    ensures a.parent <==> rel == Parent
    ensures a.child <==> rel == Child
  {
    r.(entity := true, parent := rel == Parent, child := rel == Child)
  }

  /** The relation translator for each annotation value. */
  lemma AnnotatedRelation(rel: Relationship, r: Roles)
    ensures Select(Annotated(rel, r)) == match rel
      case Parent => ParentRelation
      case Child => ChildRelation
      case Independent => IndependentRelation
  {
  }

  /** `stored(Field)`: while associating, only the fields a key is built from
      (id and parent) are visited; otherwise the configuration decides. */
  function Stored(r: Roles, associating: bool): (b: bool)
    ensures associating ==> (b <==> r.id || r.parent)
    ensures !associating ==> (b <==> r.store)
  {
    if associating then r.id || r.parent else r.store
  }

  /** While associating, a visited related entity goes to the parent
      relation unless it is the id, and a visited plain id field to the id
      translator. */
  lemma AssociatingVisitsKeyParts(r: Roles)
    ensures Stored(r, true) && !r.entity && r.id ==> Select(r) == IdTranslator
    ensures Stored(r, true) && r.entity ==> Select(r) == ParentRelation || r.id
  {
  }
}

=== FILE: session.dfy ===
/** The session state of `TranslatorObjectDatastore`: the cache that
    associates instances with keys, the pending refresh instance, the
    activation depth, and the hooks its configuration field translator
    overrides. */
module Session {
  import opened Outcomes
  import Paths
  import FieldOrder
  import ObjectFields

  /** `InstanceKeyCache`: the key of each associated instance and the
      instance cached under each key. */
  datatype Cache<I, K> = Cache(keyOf: map<I, K>, instanceOf: map<K, I>)

  /** The two maps are inverse to each other. */
  ghost predicate Valid<I, K>(c: Cache<I, K>) {
    && (forall i :: i in c.keyOf ==> c.keyOf[i] in c.instanceOf && c.instanceOf[c.keyOf[i]] == i)
    && (forall k :: k in c.instanceOf ==> c.instanceOf[k] in c.keyOf && c.keyOf[c.instanceOf[k]] == k)
  }

  /** `getKey`: null when the instance is not associated. */
  function GetKey<I, K>(c: Cache<I, K>, i: I): Option<K> {
    if i in c.keyOf then Some(c.keyOf[i]) else None
  }

  /** `getInstance`: null when nothing is cached under the key. */
  function GetInstance<I, K>(c: Cache<I, K>, k: K): Option<I> {
    if k in c.instanceOf then Some(c.instanceOf[k]) else None
  }

  /** `cache(key, instance)`: the pair replaces whatever either side was
      paired with before. */
  function Put<I, K>(c: Cache<I, K>, k: K, i: I): (r: Cache<I, K>)
    ensures GetKey(r, i) == Some(k) && GetInstance(r, k) == Some(i)
    ensures Valid(c) ==> Valid(r)
    ensures Valid(c) ==> forall j :: j in c.keyOf && j != i && c.keyOf[j] != k ==> j in r.keyOf && r.keyOf[j] == c.keyOf[j]
    ensures Valid(c) ==> forall j :: j in r.keyOf ==> j == i || (j in c.keyOf && c.keyOf[j] != k)
  {
    var keyOf := if k in c.instanceOf then c.keyOf - {c.instanceOf[k]} else c.keyOf;
    var instanceOf := if i in c.keyOf then c.instanceOf - {c.keyOf[i]} else c.instanceOf;
    Cache(keyOf[i := k], instanceOf[k := i])
  }

  /** `evictInstance`: the instance and its key leave the cache. */
  function EvictInstance<I, K>(c: Cache<I, K>, i: I): (r: Cache<I, K>)
    ensures GetKey(r, i) == None
    ensures Valid(c) ==> Valid(r)
    ensures r.keyOf.Keys == c.keyOf.Keys - {i}
    ensures forall j :: j in r.keyOf ==> r.keyOf[j] == c.keyOf[j]
  {
    if i in c.keyOf then Cache(c.keyOf - {i}, c.instanceOf - {c.keyOf[i]}) else c
  }

  /** `evictKey`: the key and its instance leave the cache. */
  function EvictKey<I, K>(c: Cache<I, K>, k: K): (r: Cache<I, K>)
    ensures GetInstance(r, k) == None
    ensures Valid(c) ==> Valid(r)
    ensures r.instanceOf.Keys == c.instanceOf.Keys - {k}
    ensures forall j :: j in r.instanceOf ==> r.instanceOf[j] == c.instanceOf[j]
  {
    if k in c.instanceOf then Cache(c.keyOf - {c.instanceOf[k]}, c.instanceOf - {k}) else c
  }

  /** Evicting an instance and caching it again under its old key gives back
      the cache it started from. */
  lemma EvictThenPutRestores<I, K>(c: Cache<I, K>, i: I)
    requires Valid(c) && i in c.keyOf
    ensures Put(EvictInstance(c, i), c.keyOf[i], i) == c
  {
    var k := c.keyOf[i];
    var r := Put(EvictInstance(c, i), k, i);
    assert r.keyOf == c.keyOf;
    assert r.instanceOf == c.instanceOf;
  }

  /** The cache with the given keys and their instances removed: the
      reference for `deleteKeys`. */
  function Without<I(!new), K(!new)>(c: Cache<I, K>, keys: set<K>): (r: Cache<I, K>)
    ensures Valid(c) ==> Valid(r)
    ensures forall k :: k in r.instanceOf <==> k in c.instanceOf && k !in keys
    ensures forall i :: i in r.keyOf <==> i in c.keyOf && c.keyOf[i] !in keys
  {
    Cache(map i | i in c.keyOf && c.keyOf[i] !in keys :: c.keyOf[i],
          map k | k in c.instanceOf && k !in keys :: c.instanceOf[k])
  }

  /** One more key removed. */
  lemma WithoutOneMore<I(!new), K(!new)>(c: Cache<I, K>, keys: set<K>, k: K)
    requires Valid(c)
    ensures EvictKey(Without(c, keys), k) == Without(c, keys + {k})
  {
    var a := EvictKey(Without(c, keys), k);
    var b := Without(c, keys + {k});
    assert a.keyOf == b.keyOf;
    assert a.instanceOf == b.instanceOf;
  }

  /** A key that is no longer cached changes nothing when added. */
  lemma WithoutAbsent<I(!new), K(!new)>(c: Cache<I, K>, keys: set<K>, k: K)
    requires Valid(c) && k !in Without(c, keys).instanceOf
    ensures Without(c, keys) == Without(c, keys + {k})
  {
    var a := Without(c, keys);
    var b := Without(c, keys + {k});
    assert a.keyOf == b.keyOf;
    assert a.instanceOf == b.instanceOf;
  }

  /** The keys of a sequence, as a set. */
  function KeySet<K(!new)>(keys: seq<K>): (r: set<K>)
    ensures forall k :: k in r <==> k in keys
  {
    if |keys| == 0 then {} else KeySet(keys[..|keys| - 1]) + {keys[|keys| - 1]}
  }

  /** `deleteKeys`: every key goes to the datastore's delete, then each one
      still cached is evicted. Returns the cache after and the keys sent. */
  method DeleteKeys<I(!new), K(!new)>(c: Cache<I, K>, keys: seq<K>) returns (r: Cache<I, K>, sent: seq<K>)
    requires Valid(c)
    ensures sent == keys
    ensures r == Without(c, KeySet(keys))
    ensures Valid(r)
  {
    sent := keys;
    r := c;
    var n := 0;
    while n < |keys|
      invariant 0 <= n <= |keys|
      invariant r == Without(c, KeySet(keys[..n]))
    {
      var k := keys[n];
      var done := KeySet(keys[..n]);
      assert KeySet(keys[..n + 1]) == done + {k} by {
        assert keys[..n + 1][..n] == keys[..n];
      }
      if k in r.instanceOf {
        WithoutOneMore(c, done, k);
        r := EvictKey(r, k);
      } else {
        WithoutAbsent(c, done, k);
      }
      n := n + 1;
    }
    assert keys[..n] == keys;
  }

  /** `delete(instance)`: an instance with no key is refused with an
      `IllegalArgumentException` before anything is deleted; otherwise its
      key is deleted. */
  method Delete<I(!new), K(!new)>(c: Cache<I, K>, i: I) returns (r: Result<(Cache<I, K>, seq<K>)>)
    requires Valid(c)
    ensures GetKey(c, i).None? ==> r == Throws(IllegalArgument)
    ensures GetKey(c, i).Some? ==> r.Ok? && r.value.1 == [c.keyOf[i]]
    ensures r.Ok? ==> GetKey(r.value.0, i) == None && Valid(r.value.0)
    ensures r.Ok? ==> StoreOrUpdate(r.value.0, i) == Store
    ensures r.Ok? ==> forall j :: j in c.keyOf && j != i ==> GetKey(r.value.0, j) == GetKey(c, j)
  {
    match GetKey(c, i)
    case None =>
      r := Throws(IllegalArgument);
    case Some(k) =>
      var after, sent := DeleteKeys(c, [k]);
      assert KeySet([k]) == {k};
      r := Ok((after, sent));
  }

  /** Whether `storeOrUpdate` stores a new entity or updates one. */
  datatype Write = Store | Update

  /** `storeOrUpdate`: an associated instance is updated, any other stored. */
  function StoreOrUpdate<I, K>(c: Cache<I, K>, i: I): (w: Write)
    ensures w == Update <==> i in c.keyOf
  {
    if GetKey(c, i).Some? then Update else Store
  }

  /** `isAssociated`. */
  function IsAssociated<I, K>(c: Cache<I, K>, i: I): (b: bool)
    ensures b <==> i in c.keyOf
    ensures b <==> StoreOrUpdate(c, i) == Update
  {
    GetKey(c, i) != None
  }

  /** `associate(instance, key)`. */
  function Associate<I, K>(c: Cache<I, K>, i: I, k: K): (r: Cache<I, K>)
    ensures IsAssociated(r, i) && GetKey(r, i) == Some(k) && GetInstance(r, k) == Some(i)
    ensures StoreOrUpdate(r, i) == Update
    ensures Valid(c) ==> Valid(r)
  {
    Put(c, k, i)
  }

  /** `disassociate(instance)`. */
  function Disassociate<I(!new), K(!new)>(c: Cache<I, K>, i: I): (r: Cache<I, K>)
    ensures !IsAssociated(r, i) && StoreOrUpdate(r, i) == Store
    ensures forall j :: j != i ==> GetKey(r, j) == GetKey(c, j)
    ensures Valid(c) ==> Valid(r)
  {
    EvictInstance(c, i)
  }

  /** `disassociateAll`: the cache is emptied. */
  function DisassociateAll<I(!new), K(!new)>(c: Cache<I, K>): (r: Cache<I, K>)
    ensures forall i :: !IsAssociated(r, i) && StoreOrUpdate(r, i) == Store
    ensures forall k :: GetInstance(r, k) == None
    ensures Valid(r)
  {
    Cache(map[], map[])
  }

  /** The datastore's mutable session state. */
  datatype State<I, K> = State(cache: Cache<I, K>, refresh: Option<I>, activationDepth: int)

  /** What a void operation leaves behind, and the exception it ended with. */
  datatype Effect<S> = Effect(after: S, thrown: Option<Exception>)

  /** `activationDepth` before any configuration changes it. */
  const InitialActivationDepth := 0x7fff_ffff

  /** `createInstance` of the configuration field translator: the pending
      refresh instance if there is one, else the subclass's instance
      (`hook`), else the no-arg constructor's. The refresh slot is cleared,
      and the instance is cached under the decoded key only when no instance
      is cached there yet. */
  function CreateInstance<I, K>(s: State<I, K>, decodeKey: K, hook: Option<I>, constructed: Option<I>): (r: Result<(State<I, K>, I)>)
    ensures s.refresh.Some? ==> r.Ok? && r.value.1 == s.refresh.value
    ensures s.refresh.None? && hook.Some? ==> r.Ok? && r.value.1 == hook.value
    ensures s.refresh.None? && hook.None? && constructed.Some? ==> r.Ok? && r.value.1 == constructed.value
    ensures s.refresh.None? && hook.None? && constructed.None? ==> r == Throws(IllegalArgument)
    ensures r.Ok? ==> r.value.0.refresh.None? && r.value.0.activationDepth == s.activationDepth
    ensures r.Ok? && decodeKey in s.cache.instanceOf ==> r.value.0.cache == s.cache
    ensures r.Ok? && decodeKey !in s.cache.instanceOf ==> r.value.0.cache == Put(s.cache, decodeKey, r.value.1)
    ensures r.Ok? ==> GetInstance(r.value.0.cache, decodeKey).Some?
    ensures r.Ok? && Valid(s.cache) ==> Valid(r.value.0.cache)
  {
    var instance :- match s.refresh
      case Some(x) => Ok(x)
      case None => if hook.Some? then Ok(hook.value) else ObjectFields.CreateInstance(constructed);
    var cache := if GetInstance(s.cache, decodeKey).None? then Put(s.cache, decodeKey, instance) else s.cache;
    Ok((s.(refresh := None, cache := cache), instance))
  }

  /** Instances decoded under the same key are cached once: the second leaves
      the cache as the first left it. */
  lemma CachedOnce<I, K>(s: State<I, K>, decodeKey: K, hook: Option<I>, constructed: Option<I>, hook2: Option<I>, constructed2: Option<I>)
    ensures var first := CreateInstance(s, decodeKey, hook, constructed);
      first.Ok? ==>
        var second := CreateInstance(first.value.0, decodeKey, hook2, constructed2);
        second.Ok? ==> second.value.0.cache == first.value.0.cache
                       && GetInstance(second.value.0.cache, decodeKey) == GetInstance(first.value.0.cache, decodeKey)
  {
  }

  /** `refresh(instance)`: an unassociated instance is refused; otherwise the
      instance is disassociated and becomes the pending refresh instance,
      and loading its key decodes into it. `found` says whether the
      datastore still holds the entity. When it does not, the load yields
      null and an `IllegalStateException` follows, with the refresh slot
      still set. */
  function Refresh<I, K>(s: State<I, K>, i: I, found: bool): (r: Effect<State<I, K>>)
    ensures GetKey(s.cache, i).None? ==> r == Effect(s, Some(IllegalState))
    ensures GetKey(s.cache, i).Some? && !found ==>
      && r.thrown == Some(IllegalState)
      && !IsAssociated(r.after.cache, i)
      && r.after.refresh == Some(i)
    ensures GetKey(s.cache, i).Some? && found ==> r.thrown.None? && r.after.refresh.None?
    ensures r.after.activationDepth == s.activationDepth
  {
    match GetKey(s.cache, i)
    case None => Effect(s, Some(IllegalState))
    case Some(k) =>
      var pending := s.(cache := EvictInstance(s.cache, i), refresh := Some(i));
      if !found then Effect(pending, Some(IllegalState))
      else
        match CreateInstance(pending, k, None, None)
        case Ok((after, _)) => Effect(after, None)
        case Throws(e) => Effect(pending, Some(e))
  }

  /** A successful refresh leaves the instance associated with the same key,
      and the cache exactly as it was. */
  lemma {:induction false} RefreshKeepsAssociation<I, K>(s: State<I, K>, i: I)
    requires Valid(s.cache) && IsAssociated(s.cache, i)
    ensures Refresh(s, i, true).thrown.None?
    ensures Refresh(s, i, true).after.cache == s.cache
    ensures GetKey(Refresh(s, i, true).after.cache, i) == GetKey(s.cache, i)
  {
    EvictThenPutRestores(s.cache, i);
  }

  /** `decode(instance, field, ...)`: the field is decoded at the activation
      depth the configuration gives for it, and the previous depth is back
      in place afterwards, whether the field's decode threw or not. */
  function DecodeField<I, K>(s: State<I, K>, depthFor: int -> int, body: State<I, K> -> Effect<State<I, K>>): (r: Effect<State<I, K>>)
    ensures r.after.activationDepth == s.activationDepth
    ensures r.thrown == body(s.(activationDepth := depthFor(s.activationDepth))).thrown
    ensures r.after.cache == body(s.(activationDepth := depthFor(s.activationDepth))).after.cache
    ensures r.after.refresh == body(s.(activationDepth := depthFor(s.activationDepth))).after.refresh
  {
    var inner := body(s.(activationDepth := depthFor(s.activationDepth)));
    Effect(inner.after.(activationDepth := s.activationDepth), inner.thrown)
  }

  /** `onBeforeEncode`: a value below the root that is associated with a
      key is an entity, not a component, and is refused. */
  function OnBeforeEncode<I, K>(c: Cache<I, K>, path: Paths.Path, value: I): (r: Result<()>)
    ensures r.Throws? <==> path.value != "" && IsAssociated(c, value)
    ensures r.Throws? ==> r.error == IllegalState
  {
    if Paths.Size(path) != 0 && GetKey(c, value).Some? then Throws(IllegalState) else Ok(())
  }

  /** The root path never triggers the check. */
  lemma RootNeverChecked<I, K>(c: Cache<I, K>, value: I)
    ensures OnBeforeEncode(c, Paths.EmptyPath, value) == Ok(())
  {
  }

  /** The memo's entry for a class: the field found, or the `NO_ID_FIELD`
      sentinel that stands for null in a map that cannot hold null. */
  datatype Memo<F> = Found(field: F) | NoField

  /** The first field of the class that has the role. */
  function FirstMatch<F>(fields: seq<F>, role: F -> bool): (r: Option<F>)
    ensures r.None? <==> forall j :: 0 <= j < |fields| ==> !role(fields[j])
    ensures r.Some? ==> exists j :: 0 <= j < |fields| && fields[j] == r.value && role(r.value) &&
                          (forall m :: 0 <= m < j ==> !role(fields[m]))
  {
    if |fields| == 0 then None
    else if role(fields[0]) then Some(fields[0])
    else
      FirstMatch(fields[1..], role)
  }

  function MemoOf<F>(found: Option<F>): Memo<F> {
    match found
    case None => NoField
    case Some(f) => Found(f)
  }

  /** Every memo entry is what a scan of its class's fields gives. */
  ghost predicate MemoSound<C, F>(memo: map<C, Memo<F>>, fieldsOf: C -> seq<F>, role: F -> bool) {
    forall c :: c in memo ==> memo[c] == MemoOf(FirstMatch(fieldsOf(c), role))
  }

  /** `idField` and `keyField`: the memoised first field with the role, or
      null. The result is null exactly when the entry is the sentinel. */
  function LookupField<C, F>(memo: map<C, Memo<F>>, c: C, fieldsOf: C -> seq<F>, role: F -> bool): (r: (Option<F>, map<C, Memo<F>>))
    ensures c in r.1
    ensures r.0.None? <==> r.1[c] == NoField
    ensures c in memo ==> r.1 == memo
    ensures MemoSound(memo, fieldsOf, role) ==>
      r.0 == FirstMatch(fieldsOf(c), role) && MemoSound(r.1, fieldsOf, role)
  {
    var entry := if c in memo then memo[c] else MemoOf(FirstMatch(fieldsOf(c), role));
    var memo' := if c in memo then memo else memo[c := entry];
    (if entry == NoField then None else Some(entry.field), memo')
  }

  /** `getSortedAccessibleFields`: the class's fields in a `TreeSet` ordered
      by configured name, so a later field whose name is already present is
      dropped. */
  function SortedAccessibleFields<F(!new)>(fields: seq<F>, name: F -> string): (r: seq<F>)
    ensures FieldOrder.StrictlySortedBy(r, name)
    ensures forall f :: f in r ==> f in fields
    ensures forall n :: FieldOrder.HasKey(r, n, name) <==> FieldOrder.HasKey(fields, n, name)
  {
    FieldOrder.TreeSetOf(fields, name)
  }

  /** Of the fields sharing a configured name, the one kept is the first
      declared. */
  lemma KeepsFirstOfEachName<F(!new)>(fields: seq<F>, name: F -> string, f: F)
    requires f in SortedAccessibleFields(fields, name)
    ensures exists j :: 0 <= j < |fields| && fields[j] == f && forall m :: 0 <= m < j ==> name(fields[m]) != name(f)
  {
    FieldOrder.TreeSetKeepsFirst(fields, name, f);
  }
}

=== FILE: strings.dfy ===
/** The string primitives the path algebra is built on: Java's
    `String.compareTo`, and the separator searches of `com.vercer.util.Strings`
    (that class is not part of this model, so the searches are given explicit
    definitions here). */
module Strings {

  /** Java's `String.compareTo`: the difference of the first differing
      characters, or the difference of the lengths when one string is a prefix
      of the other. */
  function Compare(a: string, b: string): int
    decreases |a|
  {
    if |a| == 0 || |b| == 0 then |a| - |b|
    else if a[0] != b[0] then a[0] as int - b[0] as int
    else Compare(a[1..], b[1..])
  }

  /** `compareTo` returns zero exactly for equal strings. */
  lemma {:induction false} CompareZeroIffEqual(a: string, b: string)
    ensures Compare(a, b) == 0 <==> a == b
    decreases |a|
  {
    if |a| == 0 || |b| == 0 {
    } else if a[0] != b[0] {
    } else {
      CompareZeroIffEqual(a[1..], b[1..]);
      if a[1..] == b[1..] {
        assert a == [a[0]] + a[1..] && b == [b[0]] + b[1..];
      }
    }
  }

  /** Swapping the operands negates the result. */
  lemma {:induction false} CompareAntisymmetric(a: string, b: string)
    ensures Compare(a, b) == -Compare(b, a)
    decreases |a|
  {
    if |a| == 0 || |b| == 0 {
    } else if a[0] != b[0] {
    } else {
      CompareAntisymmetric(a[1..], b[1..]);
    }
  }

  /** "Sorts strictly before" is transitive. */
  lemma {:induction false} CompareTransitive(a: string, b: string, c: string)
    requires Compare(a, b) < 0 && Compare(b, c) < 0
    ensures Compare(a, c) < 0
    decreases |a|
  {
    if |a| == 0 || |b| == 0 || |c| == 0 {
    } else if a[0] != b[0] || b[0] != c[0] {
    } else {
      CompareTransitive(a[1..], b[1..], c[1..]);
    }
  }

  /** "Sorts at or before" is transitive. */
  lemma CompareTransitiveLe(a: string, b: string, c: string)
    requires Compare(a, b) <= 0 && Compare(b, c) <= 0
    ensures Compare(a, c) <= 0
  {
    CompareZeroIffEqual(a, b);
    CompareZeroIffEqual(b, c);
    if Compare(a, b) < 0 && Compare(b, c) < 0 {
      CompareTransitive(a, b, c);
    }
  }

  /** An element sorting strictly below the head of a sorted sequence sorts
      strictly below all of it. */
  lemma CompareTransitiveChain<T>(key: T -> string, x: T, s: seq<T>)
    requires |s| > 0 && Compare(key(x), key(s[0])) < 0
    requires forall j :: 0 < j < |s| ==> Compare(key(s[0]), key(s[j])) <= 0
    ensures forall j :: 0 <= j < |s| ==> Compare(key(x), key(s[j])) < 0
  {
    forall j | 0 < j < |s|
      ensures Compare(key(x), key(s[j])) < 0
    {
      CompareZeroIffEqual(key(s[0]), key(s[j]));
      if Compare(key(s[0]), key(s[j])) < 0 {
        CompareTransitive(key(x), key(s[0]), key(s[j]));
      }
    }
  }

  /** As `CompareTransitiveChain`, for the "at or before" order. */
  lemma CompareTransitiveLeChain<T>(key: T -> string, x: T, s: seq<T>)
    requires |s| > 0 && Compare(key(x), key(s[0])) < 0
    requires forall j :: 0 < j < |s| ==> Compare(key(s[0]), key(s[j])) <= 0
    ensures forall j :: 0 <= j < |s| ==> Compare(key(x), key(s[j])) <= 0
  {
    CompareTransitiveChain(key, x, s);
  }

  /** A proper prefix sorts strictly before the longer string. */
  lemma {:induction false} ComparePrefix(a: string, rest: string)
    requires |rest| > 0
    ensures Compare(a, a + rest) < 0
    decreases |a|
  {
    if |a| == 0 {
    } else {
      assert (a + rest)[1..] == a[1..] + rest;
      ComparePrefix(a[1..], rest);
    }
  }

  /** `Strings.firstIndexOf(s, from, chars)`: the least index at or after
      `from` holding one of `chars`, or -1 when there is none. */
  function FirstIndexOf(s: string, from: nat, chars: set<char>): (r: int)
    ensures r == -1 || (from <= r < |s| && s[r] in chars)
    ensures r == -1 ==> forall j :: from <= j < |s| ==> s[j] !in chars
    ensures r >= 0 ==> forall j :: from <= j < r ==> s[j] !in chars
    decreases |s| - from
  {
    if from >= |s| then -1
    else if s[from] in chars then from
    else FirstIndexOf(s, from + 1, chars)
  }

  /** The number of characters of `s` that belong to `chars`. */
  function Occurrences(s: string, chars: set<char>): nat
  {
    if |s| == 0 then 0
    else (if s[0] in chars then 1 else 0) + Occurrences(s[1..], chars)
  }

  lemma {:induction false} OccurrencesAppend(a: string, b: string, chars: set<char>)
    ensures Occurrences(a + b, chars) == Occurrences(a, chars) + Occurrences(b, chars)
    decreases |a|
  {
    if |a| == 0 {
      assert a + b == b;
    } else {
      assert (a + b)[1..] == a[1..] + b;
      OccurrencesAppend(a[1..], b, chars);
    }
  }

  lemma {:induction false} OccurrencesNone(s: string, chars: set<char>)
    requires forall j :: 0 <= j < |s| ==> s[j] !in chars
    ensures Occurrences(s, chars) == 0
    decreases |s|
  {
    if |s| > 0 {
      OccurrencesNone(s[1..], chars);
    }
  }

  /** Splitting `s[from..to]` at `mid`. */
  lemma OccurrencesSplit(s: string, from: nat, mid: nat, to: nat, chars: set<char>)
    requires from <= mid <= to <= |s|
    ensures Occurrences(s[from..to], chars) == Occurrences(s[from..mid], chars) + Occurrences(s[mid..to], chars)
  {
    assert s[from..to] == s[from..mid] + s[mid..to];
    OccurrencesAppend(s[from..mid], s[mid..to], chars);
  }

  /** One more matching character at `i` adds one occurrence. */
  lemma OccurrencesGrowAt(s: string, from: nat, i: nat, to: nat, chars: set<char>)
    requires from <= i < to <= |s| && s[i] in chars
    ensures Occurrences(s[from..to], chars) >= Occurrences(s[from..i], chars) + 1
  {
    OccurrencesSplit(s, from, i, to, chars);
    OccurrencesSplit(s, i, i + 1, to, chars);
    assert s[i..i + 1] == [s[i]];
  }

  /** The search stops at the first matching character after a run of others. */
  lemma FirstIndexOfAfterRun(s: string, from: nat, stop: nat, chars: set<char>)
    requires from <= stop <= |s|
    requires forall j :: from <= j < stop ==> s[j] !in chars
    ensures stop < |s| && s[stop] in chars ==> FirstIndexOf(s, from, chars) == stop
    ensures stop == |s| ==> FirstIndexOf(s, from, chars) == -1
  {
  }

  /** `Strings.nthIndexOf(s, n, chars)` for `n >= 1`: the index of the `n`-th
      occurrence (counting from one) of a character of `chars` at or after
      `from`, or -1 when there are fewer than `n`. */
  function NthIndexOf(s: string, n: nat, from: nat, chars: set<char>): (r: int)
    requires n >= 1
    ensures r == -1 || (from <= r < |s| && s[r] in chars && Occurrences(s[from..r], chars) == n - 1)
    ensures r == -1 ==> from >= |s| || Occurrences(s[from..], chars) < n
    decreases |s| - from
  {
    var i := FirstIndexOf(s, from, chars);
    if i < 0 then
      (if from < |s| then OccurrencesNone(s[from..], chars); -1 else -1)
    else
      OccurrencesNone(s[from..i], chars);
      if n == 1 then i
      else
        var r := NthIndexOf(s, n - 1, i + 1, chars);
        if r >= 0 then
          OccurrencesAcross(s, from, i, r, chars);
          r
        else
          OccurrencesAcross(s, from, i, |s|, chars);
          assert s[from..] == s[from..|s|] && s[i + 1..] == s[i + 1..|s|];
          -1
  }

  /** A first matching character at `i` contributes exactly one occurrence. */
  lemma OccurrencesAcross(s: string, from: nat, i: nat, to: nat, chars: set<char>)
    requires from <= i < to <= |s| && s[i] in chars && Occurrences(s[from..i], chars) == 0
    ensures Occurrences(s[from..to], chars) == 1 + Occurrences(s[i + 1..to], chars)
  {
    OccurrencesSplit(s, from, i, to, chars);
    OccurrencesSplit(s, i, i + 1, to, chars);
    assert s[i..i + 1] == [s[i]];
  }
}
